=== FILE: README.md ===
# Plurk emoji catalogue — a Dafny model of its core

The repository is a small FastAPI service. It catalogues Plurk emoticon
urls and labels them with free-text tags. This project models its core in
Dafny 4 and proves properties of that model. The core has four parts:

- **The tag-string parser.** A comma-separated tag string becomes a list of
  tag names: split on `,`, turn every full-width space U+3000 into an ASCII
  space, strip each piece, drop empty pieces. The code holds three copies:
  `py/common_utils.py`, `schema.py` and `db/schema.py`. The three copies are
  the same comprehension, so `Schema` and `DbSchema` build theirs from the
  pieces of the `CommonUtils` reference, and they agree with it by
  construction. Every property proved of the reference holds for them.
- **The url normaliser** `EmojiIn.format_url` (module `Schema`). It deletes
  ASCII spaces, strips the ends, and re-roots the url behind `https://` at
  the first `emos.plurk.com`. Failing that, it re-roots at the first
  `s.plurk.com`. Any other url is rejected.
- **Tag get-or-create** `Tag.get_tag_list_by_str_list` (module `DbModels`),
  over a tag table held as a row sequence plus a next-id counter.
- **The endpoints of `main.py`** (module `Main`). The store is an immutable
  value: a tag table, an emoji table and a set of `(emojiId, tagId)` join
  rows. The endpoints are list (with tag intersection and paging), add one,
  add a batch, delete an emoji, delete a tag, and append tags.

The supporting modules are:

- `PyStr`: the Python `str` operations the parser and the normaliser use. These are `split`, `join`, `replace`, `strip` over the `isspace` characters, `find` and `in`.
- `Paging`: `order_by('-created_at')` and `.offset().limit()`.
- `Results`: `Option`, `Result` and the error values.

Each endpoint is a pure function from a store (and the request) to a new
store and an answer.

Validation failures are `Err` values: `NotPlurkUrl` stands for the
`ValueError` of `format_url`, and `UnreachableUrl` for that of `alive_url`.
The `TypeError` that `reduce` raises on an empty list is
`ReduceOfEmptySequence`.

Some points where the code differs from what its comments and its design say:

- **The listing is not paginated.** `main.py:72-78` computes the page, but
  `main.py:79-81` overwrites it with the whole pool. `Main.ListEmoji` returns
  the pool. `Main.PageOf` models the page that is discarded.
- **A tag string of only commas and whitespace fails.** A non-empty
  `tags_str` such as `","` parses to no names, and `all([])` is true. The
  `reduce` at `main.py:61` then runs on an empty list and raises. The model
  returns `Err(ReduceOfEmptySequence)` (`Main.ListNoNamesFails`).
- **Paging has no tie-breaker.** `order_by('-created_at')` gives no order
  among emojis created at the same instant, and each page is its own query
  (`main.py:72-75`). Two page queries may order a tie differently, so with
  ties one emoji can land on two pages and another on none. The model fixes
  one order (`Paging.SortByCreatedDesc`) and uses it for every page. When no
  two emojis share a creation time, that order is the only newest-first order
  (`Paging.NewestFirstUnique`), so the page lemmas then hold for the
  program's own queries.
- **The parser keeps duplicates** (`CommonUtils.ParseKeepsDuplicates`).

`main.py` relies on four things the model takes as assumptions:

- It calls `tags_str_2_tag_str_list` without importing it. The model takes
  it to be the shared parser of `py/common_utils.py`.
- It reads `EmojiIn.average_hash_str` and `Emoji.created_at`, which no model
  class declares. They are plain fields of the model's `EmojiIn` and `Emoji`.
- It calls `Emoji.add_tags`, which `db/models.py` does not define. `Main.AddTags`
  takes it to parse the names with `EmojiAddTagsIn.tag_str_list`, get or
  create their tags with `get_tag_list_by_str_list`, and add one join row from
  the emoji to each tag.
- Ids are UUIDs in the endpoint signatures and integers in `db/models.py`. The
  model uses natural numbers handed out by a counter.

## Model

| member | source | states |
|---|---|---|
| PyStr.Split | py/common_utils.py:15 | `str.split(',')` yields one more piece than there are commas, no piece holds a comma, and joining the pieces with `,` gives the input back |
| PyStr.SplitJoin | py/common_utils.py:15 | splitting the join of comma-free pieces gives those pieces back |
| PyStr.SplitConcat | py/common_utils.py:15 | the pieces of `a + "," + b` are the pieces of `a` followed by the pieces of `b` |
| PyStr.JoinShape | data/csv2db.py:79 | `','.join(parts)` starts with the first part, and when no part holds the separator the result holds exactly one separator fewer than there are parts |
| PyStr.ReplaceChar | py/common_utils.py:14 | `replace('　', ' ')` keeps the length and changes exactly the full-width spaces |
| PyStr.RemoveChar | schema.py:39 | `replace(' ', '')` leaves no space, keeps every other character with its multiplicity, and removes exactly the spaces it counted |
| PyStr.RemoveCharSingle | schema.py:39 | one character is dropped if it is the space and kept otherwise |
| PyStr.RemoveCharConcat | schema.py:39 | deleting from `a + b` is deleting from `a` followed by deleting from `b`, so the kept characters stay in order |
| PyStr.SkipWs | schema.py:39 | the leading scan stops at the first non-whitespace character, or at the end, and skips only whitespace |
| PyStr.SkipWsBack | schema.py:39 | the trailing scan stops after the last non-whitespace character of the range, or at its start, and skips only whitespace |
| PyStr.Strip | schema.py:39 | `strip()` is the slice from the first non-whitespace character that leaves only whitespace after it; the result has no whitespace at either end |
| PyStr.StripUnique | schema.py:39 | any slice from the first non-whitespace character, trimmed, with only whitespace after it, is the stripped string |
| PyStr.StripEmpty | py/common_utils.py:14 | a stripped piece is empty exactly when the piece is all whitespace |
| PyStr.StripTrimmed | schema.py:39 | stripping a string with no whitespace at either end changes nothing |
| PyStr.Find | schema.py:41 | `find` is -1 exactly when the pattern does not occur, and otherwise is its first occurrence |
| PyStr.FindIsFirstOccurrence | schema.py:41 | `find` returns the first occurrence of the pattern, whichever it is |
| CommonUtils.CleanPiece | py/common_utils.py:14 | a cleaned piece is the middle of the piece with full-width spaces made ASCII: a slice starting at the first non-whitespace character, with only whitespace after it; it has no whitespace at either end and no full-width space |
| CommonUtils.CleanPieceEmpty | py/common_utils.py:14 | a cleaned piece is empty exactly when the piece is whitespace only |
| CommonUtils.CleanAll | py/common_utils.py:13-16 | the first comprehension: one cleaned piece per split piece, position by position (a pointwise map whose meaning is carried by `CommonUtils.CleanPiece`) |
| CommonUtils.CleanAllConcat | py/common_utils.py:13-16 | cleaning a concatenation cleans each part |
| CommonUtils.KeepNonEmpty | py/common_utils.py:17-19 | the `if tag_str` filter keeps exactly the non-empty strings, each as often as it occurs in the input, and drops every empty one |
| CommonUtils.KeepNonEmptySingle | py/common_utils.py:17-19 | one string is kept exactly when it is non-empty |
| CommonUtils.KeepNonEmptyConcat | py/common_utils.py:17-19 | filtering a concatenation filters each part, so the kept strings stay in input order |
| CommonUtils.TagsStrToTagStrList | py/common_utils.py:7-19 | every name is non-empty, has no comma, no full-width space and no whitespace at either end; there are at most as many names as commas plus one |
| CommonUtils.ParseConcat | py/common_utils.py:13-19 | parsing `a + "," + b` gives the names of `a` followed by the names of `b`, so input order is kept |
| CommonUtils.ParseKeepsDuplicates | py/common_utils.py:17-19 | a name written twice is returned twice |
| CommonUtils.ParseEmpty | py/common_utils.py:13-19 | the parser returns no names exactly when the input holds only commas and whitespace |
| CommonUtils.ParseJoin | py/common_utils.py:7-19 | round trip: parsing the `,`-join of well-formed names returns those names |
| Schema.Squeeze | schema.py:39 | the squeezed url is the middle of the url with its spaces deleted: a slice starting at the first non-whitespace character, with only whitespace after it; it holds no space and no whitespace at either end |
| Schema.FormatUrl | schema.py:35-45 | a url is accepted exactly when its squeezed form contains `s.plurk.com`; an accepted url starts with `https://`, names `s.plurk.com`, and holds no space or surrounding whitespace; a rejected one raises with the squeezed url |
| Schema.EmosHostHoldsStaticHost | schema.py:40-43 | `s.plurk.com` occurs three characters into every occurrence of `emos.plurk.com`, so the first branch is taken first |
| Schema.FormatUrlEmosBranch | schema.py:40-41 | when the squeezed url names `emos.plurk.com`, the result is `https://` followed by the suffix from its first occurrence |
| Schema.FormatUrlStaticBranch | schema.py:42-43 | otherwise, when it names `s.plurk.com`, the result is `https://` followed by the suffix from its first occurrence |
| Schema.NoHostInScheme | schema.py:41-43 | the `https://` prefix holds no start of either host |
| Schema.RerootedIsFixed | schema.py:39-43 | re-rooting a squeezed url at a host occurrence gives a url that validates to itself |
| Schema.FormatUrlIdempotent | schema.py:39-43 | validating an accepted url again returns the same url |
| Schema.TagStrList | schema.py:70-83 | `EmojiAddTagsIn.tag_str_list` equals the shared parser on every input, so every name is well formed |
| DbSchema.TagStrList | db/schema.py:44-57 | `AddTagsIn.tag_str_list` equals the shared parser on every input; every name is well formed; it returns no names exactly when the input holds only commas and whitespace |
| DbModels.FirstIndexByName | db/models.py:26 | `filter(name=...).first()` finds the first row of that name, or nothing exactly when no row has it |
| DbModels.FirstByName | db/models.py:26 | the tag found is the first row of the table carrying the name; none is found exactly when no row has the name |
| DbModels.FirstByNameExtend | db/models.py:26-28 | appending rows does not change which row is first for a name already present |
| DbModels.GetOrCreate | db/models.py:26-29 | a present name returns its first row and changes nothing; an absent one appends one row with the next id; either way the returned tag is afterwards the first row of the name |
| DbModels.Create | db/models.py:28 | `Tag.create(name=...)` returns a tag with that name and the table's next id, appends exactly that row and advances the id counter; on a valid table the new id is unused and the table stays valid |
| DbModels.CreateIsFirst | db/models.py:27-28 | a row created for a name the table lacks is afterwards that name's first row |
| DbModels.CreateGrows | db/models.py:27-28 | creating that row is growth by the one name, with a fresh id, and keeps ids distinct |
| DbModels.GetTagListByStrList | db/models.py:15-30 | one tag per name, in order and named by it; each is its name's first row afterwards; the table only grows, by rows for names it lacked, each created once, with fresh ids; ids stay distinct |
| DbModels.GrowsByConcat | db/models.py:25-29 | growth by some names and then by others is growth by all of them in order |
| DbModels.GetTagListAllPresent | db/models.py:26-27 | when every name is present, nothing is created |
| DbModels.GetTagListIdempotent | db/models.py:25-30 | a second call with the same names creates nothing and returns the same tags |
| DbModels.GetTagListKeepsNamesUnique | db/models.py:25-29 | if names were unique before the call they are unique after it |
| Paging.OffsetStep | main.py:70 | the first page starts at offset 0 and each page starts one page size after the previous one |
| Paging.Offset | main.py:70 | the offset `(page-1)*page_size` is a whole number of pages: divisible by the page size, with quotient `page - 1` |
| Paging.MulDivExact | main.py:70 | `k*n` divided by a positive `n` is exactly `k` with no remainder |
| Paging.SortByCreatedDesc | main.py:73 | `order_by('-created_at')` returns a permutation of the pool that is non-increasing in `createdAt` and keeps distinct entries distinct |
| Paging.NewestFirstUnique | main.py:73 | when no two emojis share a creation time, there is only one newest-first order of them: two such orders of the same emojis are equal |
| Paging.NewestHeadsAgree | main.py:73 | two strictly newest-first orders of the same emojis start with the same emoji |
| Paging.Window | main.py:74-75 | `.offset(o).limit(n)` is the run of at most `n` entries starting at `o`, of the exact length left, empty past the end |
| Paging.WindowsConcatenate | main.py:74-75 | two adjacent windows of one size concatenate to the window of twice that size |
| Paging.ConsecutivePages | main.py:70-78 | page `p` followed by page `p + 1` is the window of two pages from page `p`'s offset |
| Paging.OffsetsApart | main.py:70 | a later page starts at least one page size after an earlier one |
| Paging.PagesDisjoint | main.py:70-78 | different pages of a list without repeats share no entry |
| Main.FirstById | main.py:107 | `Emoji.filter(id=id).first()` finds a row with that id, or nothing exactly when there is none |
| Main.FirstByUrl | main.py:87-88 | the lookup of `get_or_create` finds a row with that url, or nothing exactly when there is none |
| Main.TaggedIds | main.py:56-62 | an emoji's id is in a tag's id set exactly when a join row links them |
| Main.IdSets | main.py:56-62 | one id set per found tag, position by position: the ids of the emojis joined to that tag (a pointwise map whose meaning is carried by `Main.TaggedIds`) |
| Main.FilterByIds | main.py:64 | `filter(id__in=ids)` keeps exactly the emojis whose id is in the set |
| Main.ReduceIntersection | main.py:61-62 | the reduction fails exactly on an empty list; otherwise an id is in the result exactly when it is in every set |
| Main.FoldIntersect | main.py:61-62 | folding `&` over the sets from an accumulator yields exactly the ids in the accumulator and in every set |
| Main.BuildPool | main.py:46-67 | without a non-empty tag string the pool is every emoji; the only failure is the empty reduction; every pooled emoji is stored |
| Main.PageOf | main.py:70-78 | the page fails exactly when the pool does; it has at most `page_size_n` emojis, newest first, all stored |
| Main.ListEmoji | main.py:39-82 | the answer lists only stored emojis, and its only failure is the empty reduction |
| Main.ListUnknownTagIsEmpty | main.py:51-54 | if any queried name has no tag, the answer is `[]`, whatever the other names |
| Main.LookUpTags | main.py:51 | one lookup per parsed name, position by position: the first tag row with that name, or none (a pointwise map whose meaning is carried by `DbModels.FirstByName`) |
| Main.AllFound | main.py:53 | `all(tag_list)` holds exactly when every lookup found a tag |
| Main.ListNoNamesFails | main.py:47-62 | a non-empty tag string of only commas and whitespace makes the listing fail |
| Main.IntersectionOverNames | main.py:56-64 | for names that all have tags, the filtered pool holds exactly the emojis linked to the first tag of every name |
| Main.ListIsIntersection | main.py:47-64 | when every queried tag exists, an emoji is listed exactly when it carries all of them |
| Main.ListSingleTag | main.py:61-62 | a one-tag query lists exactly the emojis carrying that tag |
| Main.ListWithoutTags | main.py:65-67 | with no tag string, or an empty one, every emoji is listed |
| Main.ListIgnoresPaging | main.py:79-82 | the answer is the same for every page number and page size |
| Main.PageWithinAnswer | main.py:70-82 | the computed page is the newest-first window at `(page-1)*page_size_n`; all of it is in the answer; consecutive pages follow on |
| Main.PagesOfListingDisjoint | main.py:70-78 | in a valid store, two different pages of one listing share no emoji |
| Main.PoolDistinct | main.py:64-67 | the pool of a valid store lists no emoji twice |
| Main.WithoutKey | main.py:109 | deleting the row with an id keeps exactly the other rows |
| Main.WithoutKeyDistinct | main.py:109 | deleting rows keeps the remaining ids distinct |
| Main.FilterDistinct | main.py:64 | filtering a table with distinct ids lists no emoji twice |
| Main.LinkedNames | main.py:93 | after `add_tags`, every parsed name's first tag is linked to the emoji |
| Main.LinksStayValid | main.py:93 | growing the tag table and linking a stored emoji to tags of it keeps the store valid |
| Main.AddTags | main.py:93 | `add_tags` leaves the emoji table alone, grows the tag table only by rows for the names it lacked, adds exactly the join rows from this emoji to the first tag of each parsed name, and keeps a valid store valid |
| Main.LinksToNamed | main.py:93 | the join rows made from the fetched tags are exactly those from the emoji to the first tag of some parsed name |
| Main.AddTagsIdempotent | main.py:93 | adding the same tag string twice is the same as adding it once |
| Main.AppendStaysValid | main.py:87-92 | appending an emoji with the next id keeps the store valid |
| Main.AddEmoji | main.py:86-94 | a known url adds no row; an unknown url appends exactly one row with the next id, the given hash and time; the tag table grows only by rows for the names it lacked; exactly the join rows from the url's row to the first tag of each parsed name are added; validity is kept |
| Main.AddEmojiRows | main.py:87-92 | the handler adds no emoji row other than one for its url, and that row carries the body's hash and the time of the call |
| Main.FirstByUrlAppend | main.py:87-92 | a row created for a url the table lacked is the one a later lookup of that url finds |
| Main.AddEmojiKeepsUrlsUnique | main.py:87-92 | unique urls stay unique |
| Main.AppendKeepsUrlsUnique | main.py:87-92 | creating a row for a url the table lacks keeps urls unique |
| Main.ValidatedUrl | schema.py:35-54 | the url validators in order: a url `format_url` rejects fails with its error; a formatted url that is unreachable fails with `UnreachableUrl`; otherwise the formatted url is accepted |
| Main.PostEmoji | main.py:85-94 | a body the validators refuse is refused with their error and nothing is stored; otherwise the emoji table is unchanged or gains exactly one row for the validated url, the id counter moves with it, the tag table grows only by the parsed names, exactly their join rows to the url's row are added, and validity is kept |
| Main.PostedUrlIsPlurkUrl | main.py:85-94 | a newly stored url is a Plurk url |
| Main.AddEmojiTwice | main.py:86-94 | with unique urls, handling the same url, tags and hash again changes nothing |
| Main.PostEmojiTwice | main.py:85-94 | with unique urls, posting the same body again changes nothing |
| Main.UrlNamesOneRow | main.py:87-88 | with unique urls, a url names one row |
| Main.ValidateAll | main.py:97-98 | the list validates exactly when every body does; the i-th accepted item carries the i-th body's validated url, tags and hash; a failure carries the error of some body |
| Main.AddEach | main.py:99-100 | handling the items in turn keeps every stored emoji, only adds join rows, and keeps validity; what it adds is stated by `Main.AddEachStores`, `Main.AddEachFootprint` and `Main.AddEachLinks` |
| Main.AddEachStores | main.py:99-100 | every item's url is stored afterwards |
| Main.AddEachFootprint | main.py:87-100 | every emoji afterwards was stored before or is the row created for some item: that item's url and hash, inserted at that item's time; the tag table grows only by rows for the items' names that it lacked |
| Main.AddEachLinks | main.py:93-100 | after the items are handled, every parsed name of every item is joined to the row of that item's url, and every join row added is such a row for some item |
| Main.AddEachLinksCons | main.py:99-100 | the link facts of the first item and of the rest combine into those of all the items |
| Main.ConsLinkFor | main.py:99-100 | a join row added for the first item or for a later one is a join row for some item |
| Main.LinkedStays | main.py:93-100 | once a url's row is joined to its names' tags, later posts keep it so, since they only append rows and add join rows |
| Main.FirstByUrlExtend | main.py:87-88 | appending rows does not change which row a stored url finds |
| Main.AddEachExtends | main.py:99-100 | handling the items in turn keeps every emoji row and tag row in place and every join row |
| Main.AddEachKeepsUrlsUnique | main.py:87-100 | handling the items in turn keeps urls unique |
| Main.AddEachCons | main.py:99-100 | one item followed by the rest has the footprint of all the items, with the rest timed from the next tick |
| Main.ItemRowCons | main.py:99-100 | a row created for one of the items is the first item's row or, with times shifted by one tick, a row of the rest |
| Main.ItemNamesOfBodies | main.py:97-100 | the items carry the bodies' tag names in order |
| Main.AddEachSingle | main.py:99-100 | handling a list of one item is handling that item |
| Main.PostEmojiList | main.py:97-101 | the batch is refused, with nothing stored, exactly when some body fails validation; otherwise every earlier emoji is kept, every validated url is stored, every new row is the row of some body (its validated url and its hash, inserted at that body's time), the tag table grows only by the bodies' names, every name of each body is joined to the row of that body's url, every join row added is such a row for some body, earlier join rows stay, and unique urls and validity are kept |
| Main.BatchEmojis | main.py:87-100 | after a batch whose bodies all validated, each body's url is stored, every row is old or is the row of some body (its url, hash and time), and unique urls are kept |
| Main.BatchLinks | main.py:93-100 | after such a batch, the tag table grows only by the bodies' names, each body's names are joined to its url's row, and every added join row belongs to some body |
| Main.BodiesLinked | main.py:97-100 | names joined for each accepted item are joined for each body it came from |
| Main.BodiesLinkRows | main.py:97-100 | a join row added for some accepted item is a join row for the body it came from |
| Main.PostEmojiListSingle | main.py:97-101 | a batch of one acceptable body stores what posting that body stores |
| Main.DeleteEmoji | main.py:104-110 | an absent id changes nothing; otherwise the id is gone, exactly the other emojis remain, and exactly its join rows go; tags are untouched |
| Main.DeleteEmojiValid | main.py:104-110 | deleting an emoji keeps the store valid |
| Main.DeleteEmojiKeepsUrlsUnique | main.py:104-110 | deleting an emoji keeps urls unique |
| Main.WithoutKeyUrlsUnique | main.py:109 | deleting rows by id keeps urls unique |
| Main.DeleteTag | main.py:113-118 | an absent id changes nothing; otherwise the id is gone, exactly the other tags remain, and exactly its join rows go; emojis are untouched |
| Main.DeleteTagValid | main.py:113-118 | deleting a tag keeps the store valid |
| Main.TagsOf | main.py:133-135 | the prefetched `tag_list` holds exactly the tags linked to the emoji |
| Main.UpdateEmojiAddTags | main.py:121-136 | an unknown id answers 404 and changes nothing; otherwise the emoji table and id counter are unchanged, the tag table grows only by the parsed names, exactly the join rows from this emoji to the first tag of each parsed name are added, and the answer carries the emoji's id and url and exactly its linked tags, among them a tag of every name asked for; validity is kept |

## Left out

- `alive_url` (`schema.py:47-54`) sends a HEAD request. The model takes its outcome as the predicate parameter `alive`.
- `utils.py` (image download and average hashing) is not modelled, because it calls into PIL and imagehash. The hash is an opaque string supplied with the request.
- Creation time: the clock is the parameter `now`, or `clock` for the batch endpoint.
- Tortoise ORM and Pydantic mechanics are not modelled: async queries, `prefetch_related`, `from_orm`, response models, status codes beyond 404.
- `page_size_n` is a `nat` in the model. The source accepts any integer, and what the ORM does with a negative limit is outside the model.
- `Emoji.get_or_create` is modelled as "first row with the url, else create". The ORM raises `MultipleObjectsReturned` when several rows share the url. The model proves that every write keeps urls unique: one post (`Main.AddEmojiKeepsUrlsUnique`), a batch (`Main.PostEmojiList`, `Main.AddEachKeepsUrlsUnique`) and a delete (`Main.DeleteEmojiKeepsUrlsUnique`). Deleting a tag and appending tags leave the emoji table alone. So that case does not arise from an empty start.
- Concurrency is not modelled: requests run one after another, as the loops in the source do.
- The batch endpoint reports only the first validation error. Pydantic collects all of them; either way nothing is stored.
- `CombindEmoji` (`db/models.py:39-43`) is not modelled: it has no behaviour.
- The app registration in `initializer.py`, the page route `/`, the data import scripts under `data/` and `_.py`, and the browser code in `py/` and `pysrc/` are outside the core.
- Main.ListEmoji: states only what every answer satisfies. The exact answer in each case is stated by `Main.ListWithoutTags`, `Main.ListUnknownTagIsEmpty`, `Main.ListNoNamesFails` and `Main.ListIsIntersection`.
- Queries without `order_by` (`main.py:64`, `main.py:67`, `main.py:79`) have no order the ORM promises. The model lists them in table row order, which is what `Main.ListWithoutTags` pins down. The `.first()` lookups (`db/models.py:26`, `main.py:51`, `main.py:107`, `main.py:115`, `main.py:127`) have no `order_by` either. The model takes the first row in table order (`DbModels.FirstByName`, `Main.FirstById`). Which row that is does not matter while tag names and ids stay unique. `DbModels.GetTagListKeepsNamesUnique` proves names stay unique, and `Main.Valid`, kept by every write, requires distinct ids.
- Main.PagesOfListingDisjoint: assumes that every page query orders ties in `createdAt` the same way. The source runs one query per page with no tie-breaker, so with ties two pages can share an emoji. Without ties the order is unique (`Paging.NewestFirstUnique`) and the lemma holds as stated.
- Main.PageWithinAnswer: its consecutive-pages clause makes the same assumption as `Main.PagesOfListingDisjoint` and holds without it only when no two emojis share a creation time.
- PyStr.Join: carries no contract of its own. An `ensures` on it would be unfolded in every proof about `PyStr.Split`. Its properties are stated by `PyStr.JoinShape` and `PyStr.SplitJoin`.
- Main.AddEach: its own contract states only what the batch keeps, because a larger `ensures` on the recursive function makes its proof too costly. What the batch adds is stated by the separate lemmas `Main.AddEachStores`, `Main.AddEachFootprint` and `Main.AddEachLinks`. `Main.PostEmojiList` states the same facts in terms of the request bodies.
- The 100-character limit on `Tag.name` and `Emoji.url` (`db/models.py:10`, `db/models.py:35`, `CharField(max_length=100)`) is not modelled: names and urls are unbounded strings, and the model accepts longer ones. An ORM that checks `max_length` raises on such a value when it creates a row or filters by it. Then a listing by a long tag name fails instead of answering `[]`. A POST keeps the emoji row and fails while adding its tags. A batch stops part-way, with the bodies before the failing one stored.

=== FILE: common_utils.dfy ===
/** The tag-string parser shared by the back end and the browser front end
    (`tags_str_2_tag_str_list`): split on ASCII commas, turn every full-width
    space into an ASCII space, strip each piece, and drop the empty pieces. */
module CommonUtils {
  import opened PyStr

  /** U+3000 IDEOGRAPHIC SPACE, which the parser rewrites to an ASCII space. */
  const FullWidthSpace: char := '\U{3000}'

  /** What every name the parser yields looks like. */
  predicate IsTagName(t: string) {
    && |t| > 0
    && ',' !in t
    && FullWidthSpace !in t
    && Trimmed(t)
  }

  /** One piece between commas, cleaned: full-width spaces replaced, ends stripped. */
  function CleanPiece(piece: string): (r: string)
    ensures IsStripOf(r, ReplaceChar(piece, FullWidthSpace, ' '))
    ensures Trimmed(r)
    ensures FullWidthSpace !in r
    ensures forall c :: c in r ==> c in piece || c == ' '
  {
    var replaced := ReplaceChar(piece, FullWidthSpace, ' ');
    var r := Strip(replaced);
    forall c | c in r ensures c != FullWidthSpace && (c in piece || c == ' ') {
      StripChars(replaced, c);
      ReplacedChar(piece, c);
    }
    r
  }

  /** A character of the piece after replacement is not a full-width space,
      and is the piece's own or the ASCII space put in its place. */
  lemma ReplacedChar(piece: string, c: char)
    requires c in ReplaceChar(piece, FullWidthSpace, ' ')
    ensures c != FullWidthSpace && (c in piece || c == ' ')
  {
    var replaced := ReplaceChar(piece, FullWidthSpace, ' ');
    var i :| 0 <= i < |replaced| && replaced[i] == c;
    assert c == ' ' || piece[i] == c;
  }

  /** A cleaned piece is empty exactly when the piece was whitespace only. */
  lemma CleanPieceEmpty(piece: string)
    ensures CleanPiece(piece) == [] <==> AllWs(piece)
  {
    var replaced := ReplaceChar(piece, FullWidthSpace, ' ');
    StripEmpty(replaced);
    assert AllWs(replaced) <==> AllWs(piece) by {
      forall i | 0 <= i < |piece| ensures IsWs(replaced[i]) <==> IsWs(piece[i]) {
      }
    }
  }

  /** A name the parser could have produced comes through cleaning unchanged. */
  lemma CleanPieceOfTagName(name: string)
    requires FullWidthSpace !in name && Trimmed(name)
    ensures CleanPiece(name) == name
  {
    var replaced := ReplaceChar(name, FullWidthSpace, ' ');
    assert replaced == name;
    StripTrimmed(name);
  }

  function CleanAll(pieces: seq<string>): (r: seq<string>)
    ensures |r| == |pieces|
    ensures forall i :: 0 <= i < |pieces| ==> r[i] == CleanPiece(pieces[i])
  {
    if |pieces| == 0 then [] else [CleanPiece(pieces[0])] + CleanAll(pieces[1..])
  }

  lemma {:induction false} CleanAllConcat(a: seq<string>, b: seq<string>)
    ensures CleanAll(a + b) == CleanAll(a) + CleanAll(b)
  {
    if |a| == 0 {
      assert a + b == b;
    } else {
      assert (a + b)[0] == a[0];
      assert (a + b)[1..] == a[1..] + b;
      CleanAllConcat(a[1..], b);
    }
  }

  /** The list comprehension's `if tag_str` filter: keeps the non-empty strings in order. */
  function KeepNonEmpty(xs: seq<string>): (r: seq<string>)
    ensures |r| <= |xs|
    ensures forall i :: 0 <= i < |r| ==> r[i] != [] && r[i] in xs
    ensures forall x :: x in r <==> x in xs && x != []
    ensures forall x :: x != [] ==> multiset(r)[x] == multiset(xs)[x]
  {
    if |xs| == 0 then []
    else
      assert xs == [xs[0]] + xs[1..];
      var head: seq<string> := if xs[0] == [] then [] else [xs[0]];
      var rest := KeepNonEmpty(xs[1..]);
      assert multiset(xs) == multiset{xs[0]} + multiset(xs[1..]);
      assert multiset(head + rest) == multiset(head) + multiset(rest);
      head + rest
  }

  /** One string is kept unless it is empty. */
  lemma KeepNonEmptySingle(x: string)
    ensures KeepNonEmpty([x]) == if x == [] then [] else [x]
  {
    assert [x][1..] == [];
  }

  lemma {:induction false} KeepNonEmptyConcat(a: seq<string>, b: seq<string>)
    ensures KeepNonEmpty(a + b) == KeepNonEmpty(a) + KeepNonEmpty(b)
  {
    if |a| == 0 {
      assert a + b == b;
    } else {
      assert (a + b)[0] == a[0];
      assert (a + b)[1..] == a[1..] + b;
      KeepNonEmptyConcat(a[1..], b);
    }
  }

  /** `tags_str_2_tag_str_list(tags_str)`. Every name it yields is non-empty,
      free of commas and full-width spaces, and has no whitespace at either end;
      there are never more names than comma-separated pieces. */
  function TagsStrToTagStrList(tagsStr: string): (names: seq<string>)
    ensures forall i :: 0 <= i < |names| ==> IsTagName(names[i])
    ensures |names| <= Count(tagsStr, ',') + 1
  {
    var pieces := Split(tagsStr, ',');
    var cleaned := CleanAll(pieces);
    var names := KeepNonEmpty(cleaned);
    forall i | 0 <= i < |names| ensures IsTagName(names[i]) {
      assert names[i] != [] && names[i] in cleaned;
      var j :| 0 <= j < |cleaned| && cleaned[j] == names[i];
      assert cleaned[j] == CleanPiece(pieces[j]);
      assert ',' !in pieces[j];
    }
    names
  }

  /** A string without commas is one piece: it yields its cleaned self, or nothing. */
  lemma ParseOnePiece(piece: string)
    requires ',' !in piece
    ensures TagsStrToTagStrList(piece)
         == (if CleanPiece(piece) == [] then [] else [CleanPiece(piece)])
  {
    SplitNoSep(piece, ',');
    assert CleanAll([piece]) == [CleanPiece(piece)];
  }

  /** Parsing distributes over a comma: the names keep the order of their pieces
      and a name written twice is yielded twice. */
  lemma ParseConcat(a: string, b: string)
    ensures TagsStrToTagStrList(a + [','] + b)
         == TagsStrToTagStrList(a) + TagsStrToTagStrList(b)
  {
    var pa, pb := Split(a, ','), Split(b, ',');
    SplitConcat(a, b, ',');
    CleanAllConcat(pa, pb);
    KeepNonEmptyConcat(CleanAll(pa), CleanAll(pb));
  }

  /** The parser keeps duplicates: a name written twice comes out twice. */
  lemma ParseKeepsDuplicates(name: string)
    requires IsTagName(name)
    ensures TagsStrToTagStrList(name + [','] + name) == [name, name]
  {
    ParseConcat(name, name);
    ParseOneName(name);
  }

  /** The string holds nothing but commas and whitespace. */
  predicate OnlySeparators(s: string) {
    forall i :: 0 <= i < |s| ==> s[i] == ',' || IsWs(s[i])
  }

  lemma OnlySeparatorsConcat(a: string, b: string)
    ensures OnlySeparators(a + [','] + b) <==> OnlySeparators(a) && OnlySeparators(b)
  {
    var s := a + [','] + b;
    assert forall i :: 0 <= i < |a| ==> s[i] == a[i];
    assert forall i :: 0 <= i < |b| ==> s[|a| + 1 + i] == b[i];
  }

  /** The parser yields nothing exactly when the input holds only commas and whitespace. */
  lemma {:induction false} ParseEmpty(tagsStr: string)
    ensures TagsStrToTagStrList(tagsStr) == [] <==> OnlySeparators(tagsStr)
    decreases |tagsStr|
  {
    if k :| 0 <= k < |tagsStr| && tagsStr[k] == ',' {
      var a, b := tagsStr[..k], tagsStr[k + 1..];
      assert tagsStr == a + [','] + b;
      ParseConcat(a, b);
      OnlySeparatorsConcat(a, b);
      ParseEmpty(a);
      ParseEmpty(b);
    } else {
      ParseOnePiece(tagsStr);
      CleanPieceEmpty(tagsStr);
    }
  }

  lemma HeadTail<T>(s: seq<T>)
    requires |s| > 0
    ensures s == [s[0]] + s[1..]
  {
  }

  /** A well-formed name parses to itself alone. */
  lemma ParseOneName(name: string)
    requires IsTagName(name)
    ensures TagsStrToTagStrList(name) == [name]
  {
    ParseOnePiece(name);
    CleanPieceOfTagName(name);
  }

  /** Round trip with `",".join(names)` (how the CSV import builds a tag string):
      parsing the join of well-formed names gives the names back. */
  lemma {:induction false} ParseJoin(names: seq<string>)
    requires forall i :: 0 <= i < |names| ==> IsTagName(names[i])
    ensures TagsStrToTagStrList(Join(names, ',')) == names
  {
    if |names| == 0 {
      ParseOnePiece([]);
      CleanPieceEmpty([]);
    } else if |names| == 1 {
      ParseOneName(names[0]);
    } else {
      var rest := Join(names[1..], ',');
      assert Join(names, ',') == names[0] + [','] + rest;
      ParseJoin(names[1..]);
      ParseConcat(names[0], rest);
      ParseOneName(names[0]);
      HeadTail(names);
    }
  }
}

=== FILE: db_models.dfy ===
/** The persisted records (`db/models.py`) and the tag table's get-or-create. */
module DbModels {
  import opened Results

  /** A row of the `tag` table. */
  datatype Tag = Tag(id: nat, name: string)

  /** A row of the `emoji` table. The endpoints also read `average_hash_str`
      and `created_at`, which the model class does not declare; they are
      kept here as plain fields. */
  datatype Emoji = Emoji(id: nat, url: string, averageHash: string, createdAt: int)

  /** The tag table in row order, and the id the next created row receives. */
  datatype TagTable = TagTable(rows: seq<Tag>, nextId: nat)

  /** Ids are distinct and all below the next id to hand out. */
  predicate Valid(t: TagTable) {
    && (forall i :: 0 <= i < |t.rows| ==> t.rows[i].id < t.nextId)
    && (forall i, j :: 0 <= i < j < |t.rows| ==> t.rows[i].id != t.rows[j].id)
  }

  predicate HasName(rows: seq<Tag>, name: string) {
    exists i :: 0 <= i < |rows| && rows[i].name == name
  }

  /** No two rows carry the same name. */
  predicate NamesUnique(rows: seq<Tag>) {
    forall i, j :: 0 <= i < j < |rows| ==> rows[i].name != rows[j].name
  }

  /** Index of the first row named `name`, or -1. */
  function FirstIndexByName(rows: seq<Tag>, name: string): (k: int)
    ensures k == -1 <==> !HasName(rows, name)
    ensures k != -1 ==> 0 <= k < |rows| && rows[k].name == name
    ensures k != -1 ==> forall j :: 0 <= j < k ==> rows[j].name != name
  {
    if |rows| == 0 then -1
    else if rows[0].name == name then 0
    else
      var k := FirstIndexByName(rows[1..], name);
      assert forall j :: 0 < j < |rows| ==> rows[j] == rows[1..][j - 1];
      if k == -1 then -1 else k + 1
  }

  /** Row `k` is the first row named `name`. */
  predicate IsFirstOfName(rows: seq<Tag>, name: string, k: int) {
    0 <= k < |rows| && rows[k].name == name && forall j :: 0 <= j < k ==> rows[j].name != name
  }

  /** `Tag.filter(name=name).first()`. */
  function FirstByName(rows: seq<Tag>, name: string): (r: Option<Tag>)
    ensures r.None? <==> !HasName(rows, name)
    ensures r.Some? ==> r.value.name == name && r.value in rows
    ensures r.Some? ==> exists k :: 0 <= k < |rows| && rows[k] == r.value && IsFirstOfName(rows, name, k)
  {
    var k := FirstIndexByName(rows, name);
    if k == -1 then None else Some(rows[k])
  }

  lemma PrefixRest<T>(a: seq<T>, b: seq<T>)
    requires a <= b
    ensures a + b[|a|..] == b
  {
  }

  lemma SuffixIndex<T>(s: seq<T>, n: nat, i: nat)
    requires n <= i < |s|
    ensures s[i] == s[n..][i - n]
  {
  }

  /** Appending rows does not change which row is the first of a name already present. */
  lemma FirstByNameExtend(rows: seq<Tag>, more: seq<Tag>, name: string)
    requires HasName(rows, name)
    ensures FirstByName(rows + more, name) == FirstByName(rows, name)
  {
    var k := FirstIndexByName(rows, name);
    var k' := FirstIndexByName(rows + more, name);
    assert (rows + more)[k] == rows[k];
    assert forall j :: 0 <= j < k ==> (rows + more)[j] == rows[j];
    assert k' <= k;
    assert rows[k'] == (rows + more)[k'];
  }

  /** `Tag.create(name=name)`: a new row with the next id, appended. */
  function Create(t: TagTable, name: string): (r: (TagTable, Tag))
    ensures r.1.name == name && r.1.id == t.nextId
    ensures r.0.rows == t.rows + [r.1] && r.0.nextId == t.nextId + 1
    ensures Valid(t) ==> Valid(r.0) && forall row :: row in t.rows ==> row.id != r.1.id
  {
    var tag := Tag(t.nextId, name);
    (TagTable(t.rows + [tag], t.nextId + 1), tag)
  }

  /** `after` is `before` with rows appended: only for names in `names` that
      `before` lacked, no name twice, each with an id `before` never handed out. */
  predicate GrowsBy(before: TagTable, after: TagTable, names: seq<string>) {
    && before.rows <= after.rows
    && before.nextId <= after.nextId
    && (forall k :: |before.rows| <= k < |after.rows| ==>
          && after.rows[k].name in names
          && !HasName(before.rows, after.rows[k].name)
          && before.nextId <= after.rows[k].id < after.nextId)
    && NamesUnique(after.rows[|before.rows|..])
  }

  /** Growth by some names and then by others is growth by all of them, in order. */
  lemma GrowsByConcat(t: TagTable, t1: TagTable, t2: TagTable, n1: seq<string>, n2: seq<string>)
    requires GrowsBy(t, t1, n1) && GrowsBy(t1, t2, n2)
    ensures GrowsBy(t, t2, n1 + n2)
  {
    assert forall j :: 0 <= j < |t.rows| ==> t2.rows[j] == t1.rows[j] == t.rows[j];
    forall k | |t.rows| <= k < |t2.rows|
      ensures t2.rows[k].name in n1 + n2 && !HasName(t.rows, t2.rows[k].name)
      ensures t.nextId <= t2.rows[k].id < t2.nextId
    {
      if k < |t1.rows| {
        assert t2.rows[k] == t1.rows[k];
      } else {
        assert !HasName(t1.rows, t2.rows[k].name);
      }
    }
    var created := t2.rows[|t.rows|..];
    var off := |t1.rows| - |t.rows|;
    forall i, j | 0 <= i < j < |created| ensures created[i].name != created[j].name {
      if j < off {
        assert created[i] == t1.rows[|t.rows|..][i] && created[j] == t1.rows[|t.rows|..][j];
      } else if i < off {
        assert created[i] == t1.rows[|t.rows| + i];
        assert !HasName(t1.rows, t2.rows[|t.rows| + j].name);
      } else {
        assert created[i] == t2.rows[|t1.rows|..][i - off];
        assert created[j] == t2.rows[|t1.rows|..][j - off];
      }
    }
  }

  /** The tags found for the first name and for the rest together are each
      their name's first row in the final table. */
  lemma ConsFirstRows(rows1: seq<Tag>, rows2: seq<Tag>, names: seq<string>, tag: Tag, rest: seq<Tag>)
    requires |names| > 0 && |rest| == |names| - 1
    requires rows1 <= rows2
    requires tag.name == names[0] && FirstByName(rows1, names[0]) == Some(tag)
    requires forall i :: 0 <= i < |rest| ==> rest[i].name == names[1..][i]
    requires forall i :: 0 <= i < |rest| ==> FirstByName(rows2, names[1..][i]) == Some(rest[i])
    ensures forall i :: 0 <= i < |names| ==> ([tag] + rest)[i].name == names[i]
    ensures forall i :: 0 <= i < |names| ==> FirstByName(rows2, names[i]) == Some(([tag] + rest)[i])
  {
    PrefixRest(rows1, rows2);
    FirstByNameExtend(rows1, rows2[|rows1|..], names[0]);
    var out := [tag] + rest;
    forall i | 0 < i < |names|
      ensures out[i] == rest[i - 1] && names[i] == names[1..][i - 1]
    {
    }
  }

  /** Two tag lists that are each, position by position, their name's first row coincide. */
  lemma FirstRowsUnique(rows: seq<Tag>, names: seq<string>, a: seq<Tag>, b: seq<Tag>)
    requires |a| == |names| && |b| == |names|
    requires forall i :: 0 <= i < |names| ==> FirstByName(rows, names[i]) == Some(a[i])
    requires forall i :: 0 <= i < |names| ==> FirstByName(rows, names[i]) == Some(b[i])
    ensures a == b
  {
    assert forall i :: 0 <= i < |names| ==> a[i] == b[i];
  }

  /** One turn of the loop in `Tag.get_tag_list_by_str_list`: the first row
      named `name` if there is one, otherwise a fresh row appended. */
  function GetOrCreate(t: TagTable, name: string): (r: (TagTable, Tag))
    ensures r.1.name == name
    ensures FirstByName(r.0.rows, name) == Some(r.1)
    ensures HasName(t.rows, name) ==> r.0 == t
    ensures !HasName(t.rows, name) ==>
      r.0 == TagTable(t.rows + [r.1], t.nextId + 1) && r.1.id == t.nextId
    ensures GrowsBy(t, r.0, [name])
    ensures Valid(t) ==> Valid(r.0)
  {
    match FirstByName(t.rows, name)
    case Some(tag) => (t, tag)
    case None =>
      CreateIsFirst(t, name);
      CreateGrows(t, name);
      Create(t, name)
  }

  /** A row created for a name the table lacks is that name's first row. */
  lemma CreateIsFirst(t: TagTable, name: string)
    requires !HasName(t.rows, name)
    ensures FirstByName(Create(t, name).0.rows, name) == Some(Create(t, name).1)
  {
    var (t', tag) := Create(t, name);
    assert t'.rows[|t.rows|] == tag;
    assert FirstIndexByName(t'.rows, name) == |t.rows|;
  }

  /** Creating a row for a name the table lacks is growth by that name. */
  lemma CreateGrows(t: TagTable, name: string)
    requires !HasName(t.rows, name)
    ensures GrowsBy(t, Create(t, name).0, [name])
    ensures Valid(t) ==> Valid(Create(t, name).0)
  {
    var (t', tag) := Create(t, name);
    assert t'.rows[|t.rows|..] == [tag];
  }

  /** `Tag.get_tag_list_by_str_list(tag_str_list)`: look up or create each name
      in turn. The i-th tag returned is named by the i-th name and is the
      table's first row of that name afterwards; the table only grows, by one
      fresh row per distinct name it lacked, and its ids stay distinct. */
  function GetTagListByStrList(t: TagTable, names: seq<string>): (r: (TagTable, seq<Tag>))
    ensures |r.1| == |names|
    ensures forall i :: 0 <= i < |names| ==> r.1[i].name == names[i]
    ensures forall i :: 0 <= i < |names| ==> FirstByName(r.0.rows, names[i]) == Some(r.1[i])
    ensures GrowsBy(t, r.0, names)
    ensures Valid(t) ==> Valid(r.0)
    decreases |names|
  {
    if |names| == 0 then
      (t, [])
    else
      var (t1, tag) := GetOrCreate(t, names[0]);
      var (t2, rest) := GetTagListByStrList(t1, names[1..]);
      GrowsByConcat(t, t1, t2, [names[0]], names[1..]);
      assert [names[0]] + names[1..] == names;
      ConsFirstRows(t1.rows, t2.rows, names, tag, rest);
      (t2, [tag] + rest)
  }

  /** When every name is already in the table, the call creates nothing and
      returns each name's first row. */
  lemma {:induction false} GetTagListAllPresent(t: TagTable, names: seq<string>)
    requires forall i :: 0 <= i < |names| ==> HasName(t.rows, names[i])
    ensures GetTagListByStrList(t, names).0 == t
  {
    if |names| > 0 {
      GetTagListAllPresent(t, names[1..]);
    }
  }

  /** Calling twice with the same names creates nothing the second time and
      returns the same tags, so the same ids. */
  lemma GetTagListIdempotent(t: TagTable, names: seq<string>)
    ensures GetTagListByStrList(GetTagListByStrList(t, names).0, names)
         == GetTagListByStrList(t, names)
  {
    var r1 := GetTagListByStrList(t, names);
    GetTagListAllPresent(r1.0, names);
    var r2 := GetTagListByStrList(r1.0, names);
    FirstRowsUnique(r1.0.rows, names, r1.1, r2.1);
  }

  /** If names were unique before the call, they are unique after it. */
  lemma GetTagListKeepsNamesUnique(t: TagTable, names: seq<string>)
    requires NamesUnique(t.rows)
    ensures NamesUnique(GetTagListByStrList(t, names).0.rows)
  {
    var t' := GetTagListByStrList(t, names).0;
    var n := |t.rows|;
    forall i, j | 0 <= i < j < |t'.rows| ensures t'.rows[i].name != t'.rows[j].name {
      if j < n {
        assert t'.rows[i] == t.rows[i] && t'.rows[j] == t.rows[j];
      } else if i < n {
        assert t'.rows[i] == t.rows[i];
        assert !HasName(t.rows, t'.rows[j].name);
      } else {
        SuffixIndex(t'.rows, n, i);
        SuffixIndex(t'.rows, n, j);
      }
    }
  }
}

=== FILE: db_schema.dfy ===
/** The older request models (`db/schema.py`), which hold a second copy of the
    tag-string parser. */
module DbSchema {
  import opened PyStr
  import CommonUtils

  /** `AddTagsIn.tag_str_list`: the source writes the same comprehension out
      again here; the model builds it from the shared pieces, so it equals the
      shared parser, every name is well formed and a string of only commas and
      whitespace yields no names. */
  function TagStrList(tagsStr: string): (names: seq<string>)
    ensures names == CommonUtils.TagsStrToTagStrList(tagsStr)
    ensures forall i :: 0 <= i < |names| ==> CommonUtils.IsTagName(names[i])
    ensures names == [] <==> CommonUtils.OnlySeparators(tagsStr)
  {
    CommonUtils.ParseEmpty(tagsStr);
    CommonUtils.KeepNonEmpty(CommonUtils.CleanAll(Split(tagsStr, ',')))
  }
}

=== FILE: main.dfy ===
/** The API endpoints (`main.py`) over an in-memory picture of the database:
    the tag table, the emoji table, and the join table between them. */
module Main {
  import opened Results
  import opened DbModels
  import opened Paging
  import CommonUtils
  import Schema

  /** A row of the many-to-many join table: emoji `emojiId` carries tag `tagId`. */
  datatype Link = Link(emojiId: nat, tagId: nat)

  /** The database: the tag table, the emoji table in row order, the join
      table, and the id the next created emoji receives. */
  datatype Store = Store(tags: TagTable, emojis: seq<Emoji>, links: set<Link>, nextEmojiId: nat)

  function EmojiId(e: Emoji): nat { e.id }
  function TagId(t: Tag): nat { t.id }

  predicate HasEmoji(emojis: seq<Emoji>, id: nat) {
    exists e :: e in emojis && e.id == id
  }

  predicate HasTag(rows: seq<Tag>, id: nat) {
    exists t :: t in rows && t.id == id
  }

  predicate HasUrl(emojis: seq<Emoji>, url: string) {
    exists e :: e in emojis && e.url == url
  }

  /** No key occurs twice. */
  predicate KeysDistinct<T>(s: seq<T>, key: T -> nat) {
    forall i, j :: 0 <= i < j < |s| ==> key(s[i]) != key(s[j])
  }

  /** Emoji ids are distinct and below the next id; every join row names an
      existing emoji and an existing tag. */
  predicate Valid(db: Store) {
    && DbModels.Valid(db.tags)
    && (forall e :: e in db.emojis ==> e.id < db.nextEmojiId)
    && KeysDistinct(db.emojis, EmojiId)
    && (forall l :: l in db.links ==> HasEmoji(db.emojis, l.emojiId) && HasTag(db.tags.rows, l.tagId))
  }

  /** No two emojis share a url. */
  predicate UrlsUnique(emojis: seq<Emoji>) {
    forall i, j :: 0 <= i < j < |emojis| ==> emojis[i].url != emojis[j].url
  }

  // ------------------------------------------------------------ lookups

  /** `Emoji.filter(id=id).first()`. */
  function FirstById(emojis: seq<Emoji>, id: nat): (r: Option<Emoji>)
    ensures r.None? <==> !HasEmoji(emojis, id)
    ensures r.Some? ==> r.value in emojis && r.value.id == id
  {
    if |emojis| == 0 then None
    else if emojis[0].id == id then Some(emojis[0])
    else
      assert emojis == [emojis[0]] + emojis[1..];
      FirstById(emojis[1..], id)
  }

  /** `Emoji.get_or_create(url=...)` looks the url up first. */
  function FirstByUrl(emojis: seq<Emoji>, url: string): (r: Option<Emoji>)
    ensures r.None? <==> !HasUrl(emojis, url)
    ensures r.Some? ==> r.value in emojis && r.value.url == url
  {
    if |emojis| == 0 then None
    else if emojis[0].url == url then Some(emojis[0])
    else
      assert emojis == [emojis[0]] + emojis[1..];
      FirstByUrl(emojis[1..], url)
  }

  /** `Emoji.filter(_tag_list__in=[tag])`, as the set of the ids it yields. */
  function TaggedIds(db: Store, tagId: nat): (ids: set<nat>)
    ensures forall e :: e in db.emojis ==> (e.id in ids <==> Link(e.id, tagId) in db.links)
    ensures forall id :: id in ids ==> Link(id, tagId) in db.links && HasEmoji(db.emojis, id)
  {
    set e | e in db.emojis && Link(e.id, tagId) in db.links :: e.id
  }

  /** The rows of `emojis` whose id is in `ids`, in row order (`Emoji.filter(id__in=ids)`). */
  function FilterByIds(emojis: seq<Emoji>, ids: set<nat>): (r: seq<Emoji>)
    ensures forall e :: e in r <==> e in emojis && e.id in ids
    ensures |r| <= |emojis|
  {
    if |emojis| == 0 then []
    else
      assert emojis == [emojis[0]] + emojis[1..];
      (if emojis[0].id in ids then [emojis[0]] else []) + FilterByIds(emojis[1..], ids)
  }

  /** The rows whose key is not `id`, in row order: what is left of a table
      after `delete()` on the row with that id. */
  function WithoutKey<T(!new)>(s: seq<T>, key: T -> nat, id: nat): (r: seq<T>)
    ensures forall x :: x in r <==> x in s && key(x) != id
  {
    if |s| == 0 then []
    else
      assert s == [s[0]] + s[1..];
      (if key(s[0]) == id then [] else [s[0]]) + WithoutKey(s[1..], key, id)
  }

  /** Deleting rows keeps the remaining keys distinct. */
  lemma {:induction false} WithoutKeyDistinct<T(!new)>(s: seq<T>, key: T -> nat, id: nat)
    requires KeysDistinct(s, key)
    ensures KeysDistinct(WithoutKey(s, key, id), key)
  {
    if |s| > 0 {
      var rest := WithoutKey(s[1..], key, id);
      WithoutKeyDistinct(s[1..], key, id);
      if key(s[0]) != id {
        forall j | 0 <= j < |rest| ensures key(s[0]) != key(rest[j]) {
          assert rest[j] in s[1..];
          var m :| 0 <= m < |s[1..]| && s[1..][m] == rest[j];
          assert s[m + 1] == rest[j];
        }
        var r := [s[0]] + rest;
        forall i, j | 0 <= i < j < |r| ensures key(r[i]) != key(r[j]) {
          if i > 0 {
            assert r[i] == rest[i - 1] && r[j] == rest[j - 1];
          }
        }
      }
    }
  }

  // ------------------------------------------------------------ GET /emoji

  /** `reduce(lambda x, y: x & y, rest, acc)`. */
  function FoldIntersect(acc: set<nat>, rest: seq<set<nat>>): (r: set<nat>)
    ensures forall x :: x in r <==> x in acc && forall i :: 0 <= i < |rest| ==> x in rest[i]
  {
    if |rest| == 0 then acc
    else
      var r := FoldIntersect(acc * rest[0], rest[1..]);
      assert forall i :: 0 < i < |rest| ==> rest[i] == rest[1..][i - 1];
      r
  }

  /** `reduce(lambda x, y: x & y, sets)` without an initial value: the ids in
      every set, or a TypeError when there are no sets at all. */
  function ReduceIntersection(sets: seq<set<nat>>): (r: Result<set<nat>>)
    ensures r.Err? <==> |sets| == 0
    ensures r.Err? ==> r.error == ReduceOfEmptySequence
    ensures r.Ok? ==> forall x :: x in r.value <==> forall i :: 0 <= i < |sets| ==> x in sets[i]
  {
    if |sets| == 0 then Err(ReduceOfEmptySequence)
    else
      assert forall i :: 0 < i < |sets| ==> sets[i] == sets[1..][i - 1];
      Ok(FoldIntersect(sets[0], sets[1..]))
  }

  /** How the listing's query pool came out: the endpoint returned `[]` early
      because a tag does not exist, or the pool is these emojis in row order. */
  datatype Pool = UnknownTag | PoolOf(emojis: seq<Emoji>)

  /** `[await Tag.filter(name=n).first() for n in names]`. */
  function LookUpTags(rows: seq<Tag>, names: seq<string>): (found: seq<Option<Tag>>)
    ensures |found| == |names|
    ensures forall i :: 0 <= i < |names| ==> found[i] == FirstByName(rows, names[i])
  {
    seq(|names|, i requires 0 <= i < |names| => FirstByName(rows, names[i]))
  }

  /** `all(tag_list)`. */
  function AllFound(found: seq<Option<Tag>>): (b: bool)
    ensures b <==> forall i :: 0 <= i < |found| ==> found[i].Some?
  {
    None !in found
  }

  function FoundTags(found: seq<Option<Tag>>): (tags: seq<Tag>)
    requires AllFound(found)
    ensures |tags| == |found|
    ensures forall i :: 0 <= i < |found| ==> found[i] == Some(tags[i])
  {
    seq(|found|, i requires 0 <= i < |found| => found[i].value)
  }

  /** One id set per tag: the emojis carrying it. */
  function IdSets(db: Store, tags: seq<Tag>): (sets: seq<set<nat>>)
    ensures |sets| == |tags|
    ensures forall i :: 0 <= i < |tags| ==> sets[i] == TaggedIds(db, tags[i].id)
  {
    seq(|tags|, i requires 0 <= i < |tags| => TaggedIds(db, tags[i].id))
  }

  /** Python's truth value of the optional `tags_str`: present and non-empty. */
  predicate Truthy(tagsStr: Option<string>) {
    tagsStr.Some? && tagsStr.value != []
  }

  /** The tag names a truthy `tags_str` asks for. The endpoint calls the
      shared parser by name without importing it; the model takes it to be
      the shared parser. */
  function QueriedNames(tagsStr: Option<string>): seq<string>
    requires Truthy(tagsStr)
  {
    CommonUtils.TagsStrToTagStrList(tagsStr.value)
  }

  /** The emoji query pool of the listing endpoint. Without a (non-empty)
      `tags_str`, every emoji. Otherwise the named tags are looked up; if any
      is missing the endpoint answers `[]` at once; if none was named the
      reduction fails; else the pool holds the emojis carrying every tag. */
  function BuildPool(db: Store, tagsStr: Option<string>): (r: Result<Pool>)
    ensures !Truthy(tagsStr) ==> r == Ok(PoolOf(db.emojis))
    ensures r.Err? ==> r.error == ReduceOfEmptySequence
    ensures r.Ok? && r.value.PoolOf? ==> forall e :: e in r.value.emojis ==> e in db.emojis
  {
    if Truthy(tagsStr) then
      var found := LookUpTags(db.tags.rows, QueriedNames(tagsStr));
      if !AllFound(found) then Ok(UnknownTag)
      else
        match ReduceIntersection(IdSets(db, FoundTags(found)))
        case Err(e) => Err(e)
        case Ok(ids) => Ok(PoolOf(FilterByIds(db.emojis, ids)))
    else
      Ok(PoolOf(db.emojis))
  }

  /** The page the listing endpoint computes and then discards: the pool
      newest first, from `(page - 1) * page_size_n`, at most `page_size_n`
      emojis. */
  function PageOf(db: Store, page: PageNo, pageSize: nat, tagsStr: Option<string>): (r: Result<seq<Emoji>>)
    ensures r.Err? <==> BuildPool(db, tagsStr).Err?
    ensures r.Ok? ==> |r.value| <= pageSize && NonIncreasing(r.value)
    ensures r.Ok? ==> forall e :: e in r.value ==> e in db.emojis
  {
    match BuildPool(db, tagsStr)
    case Err(e) => Err(e)
    case Ok(UnknownTag) => Ok([])
    case Ok(PoolOf(pool)) =>
      var sorted := SortByCreatedDesc(pool);
      var w := Window(sorted, Offset(page, pageSize), pageSize);
      WindowNonIncreasing(sorted, Offset(page, pageSize), pageSize);
      assert forall e :: e in w ==> e in multiset(sorted);
      Ok(w)
  }

  /** `GET /emoji` (`獲取表符列表`). The second query overwrites the page, so
      the answer is the whole pool in row order, whatever the page. */
  function ListEmoji(db: Store, page: PageNo, pageSize: nat, tagsStr: Option<string>): (r: Result<seq<Emoji>>)
    ensures r.Err? ==> r.error == ReduceOfEmptySequence
    ensures r.Ok? ==> forall e :: e in r.value ==> e in db.emojis
  {
    match BuildPool(db, tagsStr)
    case Err(e) => Err(e)
    case Ok(UnknownTag) => Ok([])
    case Ok(PoolOf(pool)) => Ok(pool)
  }

  /** With no `tags_str` (missing or empty) every emoji is listed. */
  lemma ListWithoutTags(db: Store, page: PageNo, pageSize: nat, tagsStr: Option<string>)
    requires !Truthy(tagsStr)
    ensures ListEmoji(db, page, pageSize, tagsStr) == Ok(db.emojis)
  {
  }

  /** Fail closed: if any queried name has no tag, the result is empty,
      whatever the other names. */
  lemma ListUnknownTagIsEmpty(db: Store, page: PageNo, pageSize: nat, tagsStr: Option<string>, k: nat)
    requires Truthy(tagsStr)
    requires k < |QueriedNames(tagsStr)|
    requires !HasName(db.tags.rows, QueriedNames(tagsStr)[k])
    ensures ListEmoji(db, page, pageSize, tagsStr) == Ok([])
  {
    var found := LookUpTags(db.tags.rows, QueriedNames(tagsStr));
    assert found[k].None?;
  }

  /** A non-empty `tags_str` with no names in it (only commas and whitespace)
      reaches `reduce` with an empty list and fails. */
  lemma ListNoNamesFails(db: Store, page: PageNo, pageSize: nat, tagsStr: Option<string>)
    requires Truthy(tagsStr)
    requires CommonUtils.OnlySeparators(tagsStr.value)
    ensures ListEmoji(db, page, pageSize, tagsStr) == Err(ReduceOfEmptySequence)
  {
    CommonUtils.ParseEmpty(tagsStr.value);
  }

  /** Filtering by the reduction of the tags' id sets keeps exactly the
      emojis that carry every one of the tags. */
  lemma FilterByAllTags(db: Store, tags: seq<Tag>, ids: set<nat>)
    requires ReduceIntersection(IdSets(db, tags)) == Ok(ids)
    ensures forall e :: e in FilterByIds(db.emojis, ids) <==>
      e in db.emojis && forall i :: 0 <= i < |tags| ==> Link(e.id, tags[i].id) in db.links
  {
    var sets := IdSets(db, tags);
    forall e | e in db.emojis
      ensures e.id in ids <==> forall i :: 0 <= i < |tags| ==> Link(e.id, tags[i].id) in db.links
    {
      assert forall i :: 0 <= i < |tags| ==> (e.id in sets[i] <==> Link(e.id, tags[i].id) in db.links);
    }
  }

  /** When every queried name has a tag, the answer is the filter by the
      reduction of their id sets. */
  lemma ListWhenAllFound(db: Store, page: PageNo, pageSize: nat, tagsStr: Option<string>)
    requires Truthy(tagsStr)
    requires AllFound(LookUpTags(db.tags.rows, QueriedNames(tagsStr)))
    ensures var sets := IdSets(db, FoundTags(LookUpTags(db.tags.rows, QueriedNames(tagsStr))));
      ListEmoji(db, page, pageSize, tagsStr) ==
        if |sets| == 0 then Err(ReduceOfEmptySequence)
        else Ok(FilterByIds(db.emojis, ReduceIntersection(sets).value))
  {
  }

  /** Names that all have tags select, through the reduction of their id
      sets, exactly the emojis carrying the first tag of every name. */
  lemma IntersectionOverNames(db: Store, names: seq<string>)
    requires |names| > 0
    requires forall i :: 0 <= i < |names| ==> HasName(db.tags.rows, names[i])
    ensures AllFound(LookUpTags(db.tags.rows, names))
    ensures var sets := IdSets(db, FoundTags(LookUpTags(db.tags.rows, names)));
      |sets| > 0 &&
      forall e :: e in FilterByIds(db.emojis, ReduceIntersection(sets).value) <==>
        e in db.emojis &&
        forall i :: 0 <= i < |names| ==> Link(e.id, FirstByName(db.tags.rows, names[i]).value.id) in db.links
  {
    var found := LookUpTags(db.tags.rows, names);
    assert AllFound(found);
    var tags := FoundTags(found);
    assert forall i :: 0 <= i < |names| ==> tags[i].id == FirstByName(db.tags.rows, names[i]).value.id;
    FilterByAllTags(db, tags, ReduceIntersection(IdSets(db, tags)).value);
  }

  /** When every queried name has a tag, an emoji is listed exactly when it
      carries the first tag of every one of those names (logical AND). */
  lemma ListIsIntersection(db: Store, page: PageNo, pageSize: nat, tagsStr: Option<string>)
    requires Truthy(tagsStr)
    requires |QueriedNames(tagsStr)| > 0
    requires forall i :: 0 <= i < |QueriedNames(tagsStr)| ==> HasName(db.tags.rows, QueriedNames(tagsStr)[i])
    ensures ListEmoji(db, page, pageSize, tagsStr).Ok?
    ensures forall e :: e in ListEmoji(db, page, pageSize, tagsStr).value <==>
      e in db.emojis &&
      forall i :: 0 <= i < |QueriedNames(tagsStr)| ==>
        Link(e.id, FirstByName(db.tags.rows, QueriedNames(tagsStr)[i]).value.id) in db.links
  {
    IntersectionOverNames(db, QueriedNames(tagsStr));
    ListWhenAllFound(db, page, pageSize, tagsStr);
  }

  /** A single-tag query lists exactly the emojis carrying that tag: the
      reduction over one set is that set. */
  lemma ListSingleTag(db: Store, page: PageNo, pageSize: nat, tagsStr: Option<string>, tag: Tag)
    requires Truthy(tagsStr)
    requires QueriedNames(tagsStr) == [tag.name]
    requires FirstByName(db.tags.rows, tag.name) == Some(tag)
    ensures ListEmoji(db, page, pageSize, tagsStr) == Ok(FilterByIds(db.emojis, TaggedIds(db, tag.id)))
  {
    var found := LookUpTags(db.tags.rows, QueriedNames(tagsStr));
    assert found == [Some(tag)];
    assert FoundTags(found) == [tag];
    var sets := IdSets(db, [tag]);
    assert sets == [TaggedIds(db, tag.id)];
    assert ReduceIntersection(sets) == Ok(TaggedIds(db, tag.id));
    ListWhenAllFound(db, page, pageSize, tagsStr);
  }

  /** The answer does not depend on the page or the page size. */
  lemma ListIgnoresPaging(db: Store, p: PageNo, n: nat, q: PageNo, m: nat, tagsStr: Option<string>)
    ensures ListEmoji(db, p, n, tagsStr) == ListEmoji(db, q, m, tagsStr)
  {
  }

  /** The discarded page is a newest-first window of the pool; everything on
      it is in the answer, and two consecutive pages make one window of twice
      the size. */
  lemma PageWithinAnswer(db: Store, page: PageNo, pageSize: nat, tagsStr: Option<string>, pool: seq<Emoji>)
    requires BuildPool(db, tagsStr) == Ok(PoolOf(pool))
    ensures PageOf(db, page, pageSize, tagsStr)
         == Ok(Window(SortByCreatedDesc(pool), Offset(page, pageSize), pageSize))
    ensures forall e :: e in PageOf(db, page, pageSize, tagsStr).value ==>
      e in ListEmoji(db, page, pageSize, tagsStr).value
    ensures PageOf(db, page, pageSize, tagsStr).value + PageOf(db, page + 1, pageSize, tagsStr).value
         == Window(SortByCreatedDesc(pool), Offset(page, pageSize), 2 * pageSize)
  {
    var sorted := SortByCreatedDesc(pool);
    assert forall e :: e in Window(sorted, Offset(page, pageSize), pageSize) ==> e in multiset(sorted);
    ConsecutivePages(sorted, page, pageSize);
  }

  /** Different pages of the same listing share no emoji. */
  lemma PagesOfListingDisjoint(db: Store, p: PageNo, q: PageNo, pageSize: nat, tagsStr: Option<string>, e: Emoji)
    requires Valid(db)
    requires p != q
    requires PageOf(db, p, pageSize, tagsStr).Ok? && e in PageOf(db, p, pageSize, tagsStr).value
    ensures e !in PageOf(db, q, pageSize, tagsStr).value
  {
    var pool := BuildPool(db, tagsStr);
    if pool.value.PoolOf? {
      PoolDistinct(db, tagsStr, pool.value.emojis);
      PagesDisjoint(SortByCreatedDesc(pool.value.emojis), p, q, pageSize, e);
    }
  }

  /** The pool of a valid store lists no emoji twice. */
  lemma PoolDistinct(db: Store, tagsStr: Option<string>, pool: seq<Emoji>)
    requires Valid(db)
    requires BuildPool(db, tagsStr) == Ok(PoolOf(pool))
    ensures Distinct(pool)
  {
    if Truthy(tagsStr) {
      var found := LookUpTags(db.tags.rows, QueriedNames(tagsStr));
      var ids := ReduceIntersection(IdSets(db, FoundTags(found))).value;
      FilterDistinct(db.emojis, ids);
    } else {
      KeysDistinctIsDistinct(db.emojis);
    }
  }

  lemma KeysDistinctIsDistinct(s: seq<Emoji>)
    requires KeysDistinct(s, EmojiId)
    ensures Distinct(s)
  {
    forall i, j | 0 <= i < j < |s| ensures s[i] != s[j] {
      assert EmojiId(s[i]) != EmojiId(s[j]);
    }
  }

  lemma {:induction false} FilterDistinct(s: seq<Emoji>, ids: set<nat>)
    requires KeysDistinct(s, EmojiId)
    ensures Distinct(FilterByIds(s, ids))
  {
    if |s| > 0 {
      var rest := FilterByIds(s[1..], ids);
      assert KeysDistinct(s[1..], EmojiId) by {
        assert forall i :: 0 <= i < |s[1..]| ==> s[1..][i] == s[i + 1];
      }
      FilterDistinct(s[1..], ids);
      if s[0].id in ids {
        forall j | 0 <= j < |rest| ensures s[0] != rest[j] {
          assert rest[j] in s[1..];
          var m :| 0 <= m < |s[1..]| && s[1..][m] == rest[j];
          assert EmojiId(s[0]) != EmojiId(s[m + 1]);
        }
        var r := [s[0]] + rest;
        forall i, j | 0 <= i < j < |r| ensures r[i] != r[j] {
          if i > 0 {
            assert r[i] == rest[i - 1] && r[j] == rest[j - 1];
          }
        }
      }
    }
  }

  // ------------------------------------------------------------ add_tags

  /** A join row from the emoji to each tag. */
  function LinksTo(emojiId: nat, tags: seq<Tag>): set<Link> {
    set t | t in tags :: Link(emojiId, t.id)
  }

  /** `l` joins emoji `emojiId` to the first row of one of `names`. */
  predicate NamedLink(rows: seq<Tag>, names: seq<string>, emojiId: nat, l: Link) {
    && l.emojiId == emojiId
    && exists i :: 0 <= i < |names| && FirstByName(rows, names[i]).Some? && l.tagId == FirstByName(rows, names[i]).value.id
  }

  /** The join rows to the tags found for `names` are exactly the rows from
      the emoji to the first row of one of the names. */
  lemma LinksToNamed(rows: seq<Tag>, names: seq<string>, tags: seq<Tag>, emojiId: nat)
    requires |tags| == |names|
    requires forall i :: 0 <= i < |names| ==> FirstByName(rows, names[i]) == Some(tags[i])
    ensures forall l :: l in LinksTo(emojiId, tags) <==> NamedLink(rows, names, emojiId, l)
  {
    forall l | NamedLink(rows, names, emojiId, l) ensures l in LinksTo(emojiId, tags) {
      var i :| 0 <= i < |names| && FirstByName(rows, names[i]).Some? && l.tagId == FirstByName(rows, names[i]).value.id;
      assert tags[i] in tags;
    }
    forall l | l in LinksTo(emojiId, tags) ensures NamedLink(rows, names, emojiId, l) {
      var t :| t in tags && l == Link(emojiId, t.id);
      var i :| 0 <= i < |tags| && tags[i] == t;
      assert FirstByName(rows, names[i]) == Some(t);
    }
  }

  /** Each name's first row in the grown table is linked. */
  lemma LinkedNames(rows: seq<Tag>, names: seq<string>, tags: seq<Tag>, emojiId: nat)
    requires |tags| == |names|
    requires forall i :: 0 <= i < |names| ==> FirstByName(rows, names[i]) == Some(tags[i])
    ensures forall n :: n in names ==>
      FirstByName(rows, n).Some? && Link(emojiId, FirstByName(rows, n).value.id) in LinksTo(emojiId, tags)
  {
    forall n | n in names
      ensures FirstByName(rows, n).Some? && Link(emojiId, FirstByName(rows, n).value.id) in LinksTo(emojiId, tags)
    {
      var i :| 0 <= i < |names| && names[i] == n;
      assert tags[i] in tags;
    }
  }

  /** Growing the tag table and linking an existing emoji to tags of it keeps
      the store valid. */
  lemma LinksStayValid(db: Store, tags': TagTable, names: seq<string>, tags: seq<Tag>, emojiId: nat)
    requires Valid(db) && HasEmoji(db.emojis, emojiId)
    requires GrowsBy(db.tags, tags', names) && DbModels.Valid(tags')
    requires |tags| == |names|
    requires forall i :: 0 <= i < |names| ==> FirstByName(tags'.rows, names[i]) == Some(tags[i])
    ensures Valid(Store(tags', db.emojis, db.links + LinksTo(emojiId, tags), db.nextEmojiId))
  {
    forall l | l in db.links + LinksTo(emojiId, tags) ensures HasTag(tags'.rows, l.tagId) {
      if l in db.links {
        var t :| t in db.tags.rows && t.id == l.tagId;
        var i :| 0 <= i < |db.tags.rows| && db.tags.rows[i] == t;
        assert tags'.rows[i] == t;
      } else {
        var t :| t in tags && l == Link(emojiId, t.id);
        var i :| 0 <= i < |tags| && tags[i] == t;
        assert FirstByName(tags'.rows, names[i]) == Some(t);
      }
    }
  }

  /** `Emoji.add_tags(EmojiAddTagsIn(tags_str=...))`, which the emoji model
      does not define; taken to parse the names, get or create their tags,
      and add a join row from the emoji to each. Only join rows of this emoji
      are added, the emoji table is untouched, and afterwards every named tag
      exists and is linked. */
  function AddTags(db: Store, emojiId: nat, tagsStr: string): (r: Store)
    ensures r.emojis == db.emojis && r.nextEmojiId == db.nextEmojiId
    ensures GrowsBy(db.tags, r.tags, Schema.TagStrList(tagsStr))
    ensures db.links <= r.links
    ensures forall l :: l in r.links - db.links ==> l.emojiId == emojiId
    ensures forall l :: l in r.links <==> l in db.links || NamedLink(r.tags.rows, Schema.TagStrList(tagsStr), emojiId, l)
    ensures forall n :: n in Schema.TagStrList(tagsStr) ==>
      FirstByName(r.tags.rows, n).Some? && Link(emojiId, FirstByName(r.tags.rows, n).value.id) in r.links
    ensures Valid(db) && HasEmoji(db.emojis, emojiId) ==> Valid(r)
  {
    var names := Schema.TagStrList(tagsStr);
    var (tags', tagList) := GetTagListByStrList(db.tags, names);
    LinkedNames(tags'.rows, names, tagList, emojiId);
    LinksToNamed(tags'.rows, names, tagList, emojiId);
    var r := Store(tags', db.emojis, db.links + LinksTo(emojiId, tagList), db.nextEmojiId);
    assert Valid(db) && HasEmoji(db.emojis, emojiId) ==> Valid(r) by {
      if Valid(db) && HasEmoji(db.emojis, emojiId) {
        LinksStayValid(db, tags', names, tagList, emojiId);
      }
    }
    r
  }

  /** Adding the same tags twice is the same as adding them once. */
  lemma AddTagsIdempotent(db: Store, emojiId: nat, tagsStr: string)
    ensures AddTags(AddTags(db, emojiId, tagsStr), emojiId, tagsStr) == AddTags(db, emojiId, tagsStr)
  {
    var names := Schema.TagStrList(tagsStr);
    GetTagListIdempotent(db.tags, names);
    var tagList := GetTagListByStrList(db.tags, names).1;
    var once := AddTags(db, emojiId, tagsStr);
    assert once.links + LinksTo(emojiId, tagList) == once.links;
  }

  // ------------------------------------------------------------ POST /emoji

  /** The body of `POST /emoji`, with the `average_hash_str` field the
      handler reads although the request model does not declare it. */
  datatype EmojiIn = EmojiIn(url: string, tagsStr: string, averageHash: string)

  /** A new emoji row appended with the next id. */
  lemma AppendStaysValid(db: Store, e: Emoji)
    requires Valid(db) && e.id == db.nextEmojiId
    ensures Valid(Store(db.tags, db.emojis + [e], db.links, db.nextEmojiId + 1))
  {
    var s := db.emojis + [e];
    forall i, j | 0 <= i < j < |s| ensures EmojiId(s[i]) != EmojiId(s[j]) {
      if j < |db.emojis| {
        assert s[i] == db.emojis[i] && s[j] == db.emojis[j];
      } else {
        assert s[i] in db.emojis;
      }
    }
    forall l | l in db.links ensures HasEmoji(s, l.emojiId) {
      var x :| x in db.emojis && x.id == l.emojiId;
      assert x in s;
    }
  }

  /** The handler of `POST /emoji` (`新增表符`) on a validated url: get or
      create the emoji by url (a new row takes the hash and the time `now`),
      then add the tags. An existing url keeps its row and its hash. */
  function AddEmoji(db: Store, url: string, tagsStr: string, hash: string, now: int): (r: Store)
    ensures HasUrl(db.emojis, url) ==> r.emojis == db.emojis && r.nextEmojiId == db.nextEmojiId
    ensures !HasUrl(db.emojis, url) ==>
      r.emojis == db.emojis + [Emoji(db.nextEmojiId, url, hash, now)] && r.nextEmojiId == db.nextEmojiId + 1
    ensures HasUrl(r.emojis, url)
    ensures GrowsBy(db.tags, r.tags, Schema.TagStrList(tagsStr))
    ensures db.links <= r.links
    ensures forall l :: l in r.links <==>
      l in db.links || NamedLink(r.tags.rows, Schema.TagStrList(tagsStr), FirstByUrl(r.emojis, url).value.id, l)
    ensures forall n :: n in Schema.TagStrList(tagsStr) ==>
      (FirstByName(r.tags.rows, n).Some? &&
       Link(FirstByUrl(r.emojis, url).value.id, FirstByName(r.tags.rows, n).value.id) in r.links)
    ensures Valid(db) ==> Valid(r)
  {
    match FirstByUrl(db.emojis, url)
    case Some(e) =>
      AddTags(db, e.id, tagsStr)
    case None =>
      var e := Emoji(db.nextEmojiId, url, hash, now);
      var db1 := Store(db.tags, db.emojis + [e], db.links, db.nextEmojiId + 1);
      assert e in db1.emojis;
      FirstByUrlAppend(db.emojis, e);
      assert Valid(db) ==> Valid(db1) by {
        if Valid(db) {
          AppendStaysValid(db, e);
        }
      }
      AddTags(db1, e.id, tagsStr)
  }

  /** The handler adds no emoji row but one for its url, with its hash and time. */
  lemma AddEmojiRows(db: Store, url: string, tagsStr: string, hash: string, now: int)
    ensures forall e :: e in AddEmoji(db, url, tagsStr, hash, now).emojis ==>
      e in db.emojis || (e.url == url && e.averageHash == hash && e.createdAt == now)
  {
  }

  /** A row appended for a url the table lacks is the one the url then finds. */
  lemma {:induction false} FirstByUrlAppend(emojis: seq<Emoji>, e: Emoji)
    requires !HasUrl(emojis, e.url)
    ensures FirstByUrl(emojis + [e], e.url) == Some(e)
  {
    if |emojis| > 0 {
      assert emojis[0] in emojis;
      assert (emojis + [e])[1..] == emojis[1..] + [e];
      FirstByUrlAppend(emojis[1..], e);
    } else {
      assert (emojis + [e]) == [e];
    }
  }

  /** Posting a url already stored adds no emoji row, so urls stay unique. */
  lemma AddEmojiKeepsUrlsUnique(db: Store, url: string, tagsStr: string, hash: string, now: int)
    requires UrlsUnique(db.emojis)
    ensures UrlsUnique(AddEmoji(db, url, tagsStr, hash, now).emojis)
  {
    if !HasUrl(db.emojis, url) {
      AppendKeepsUrlsUnique(db.emojis, Emoji(db.nextEmojiId, url, hash, now));
    }
  }

  /** Appending a row whose url the table lacks keeps urls unique. */
  lemma AppendKeepsUrlsUnique(emojis: seq<Emoji>, e: Emoji)
    requires UrlsUnique(emojis) && !HasUrl(emojis, e.url)
    ensures UrlsUnique(emojis + [e])
  {
    var s := emojis + [e];
    forall i, j | 0 <= i < j < |s| ensures s[i].url != s[j].url {
      assert s[i] == emojis[i];
      if j < |emojis| {
        assert s[j] == emojis[j];
      } else {
        assert emojis[i] in emojis;
      }
    }
  }

  /** The validators of `EmojiIn.url` in declaration order: `format_url`,
      then `alive_url` on its result (a HEAD request, here the predicate
      `alive`). The first to raise decides the error; an accepted url is the
      formatted one, and is a Plurk url. */
  function ValidatedUrl(body: EmojiIn, alive: string -> bool): (r: Result<string>)
    ensures Schema.FormatUrl(body.url).Err? ==> r == Err(Schema.FormatUrl(body.url).error)
    ensures Schema.FormatUrl(body.url).Ok? && !alive(Schema.FormatUrl(body.url).value) ==>
      r == Err(UnreachableUrl(Schema.FormatUrl(body.url).value))
    ensures r.Ok? <==> Schema.FormatUrl(body.url).Ok? && alive(Schema.FormatUrl(body.url).value)
    ensures r.Ok? ==> r.value == Schema.FormatUrl(body.url).value
  {
    match Schema.FormatUrl(body.url)
    case Err(e) => Err(e)
    case Ok(url) => if alive(url) then Ok(url) else Err(UnreachableUrl(url))
  }

  /** `POST /emoji`: a body the validators reject is refused with their
      error and nothing is stored; an accepted one is handed to the handler
      and stored under its validated url. */
  function PostEmoji(db: Store, body: EmojiIn, alive: string -> bool, now: int): (r: Result<Store>)
    ensures r.Err? <==> ValidatedUrl(body, alive).Err?
    ensures r.Err? ==> r.error == ValidatedUrl(body, alive).error
    ensures r.Ok? ==> HasUrl(r.value.emojis, ValidatedUrl(body, alive).value)
    ensures r.Ok? && HasUrl(db.emojis, ValidatedUrl(body, alive).value) ==> r.value.emojis == db.emojis
    ensures r.Ok? && !HasUrl(db.emojis, ValidatedUrl(body, alive).value) ==>
      r.value.emojis == db.emojis + [Emoji(db.nextEmojiId, ValidatedUrl(body, alive).value, body.averageHash, now)]
    ensures r.Ok? && HasUrl(db.emojis, ValidatedUrl(body, alive).value) ==> r.value.nextEmojiId == db.nextEmojiId
    ensures r.Ok? && !HasUrl(db.emojis, ValidatedUrl(body, alive).value) ==> r.value.nextEmojiId == db.nextEmojiId + 1
    ensures r.Ok? ==> GrowsBy(db.tags, r.value.tags, Schema.TagStrList(body.tagsStr)) && db.links <= r.value.links
    ensures r.Ok? ==> forall l :: l in r.value.links <==>
      (l in db.links ||
       NamedLink(r.value.tags.rows, Schema.TagStrList(body.tagsStr),
                 FirstByUrl(r.value.emojis, ValidatedUrl(body, alive).value).value.id, l))
    ensures r.Ok? ==> forall n :: n in Schema.TagStrList(body.tagsStr) ==>
      (FirstByName(r.value.tags.rows, n).Some? &&
       Link(FirstByUrl(r.value.emojis, ValidatedUrl(body, alive).value).value.id,
            FirstByName(r.value.tags.rows, n).value.id) in r.value.links)
    ensures r.Ok? && Valid(db) ==> Valid(r.value)
  {
    match ValidatedUrl(body, alive)
    case Err(e) => Err(e)
    case Ok(url) => Ok(AddEmoji(db, url, body.tagsStr, body.averageHash, now))
  }

  /** Every url stored through `POST /emoji` is a Plurk url. */
  lemma PostedUrlIsPlurkUrl(db: Store, body: EmojiIn, alive: string -> bool, now: int)
    requires PostEmoji(db, body, alive, now).Ok?
    requires !HasUrl(db.emojis, ValidatedUrl(body, alive).value)
    ensures var r := PostEmoji(db, body, alive, now).value;
      |r.emojis| == |db.emojis| + 1 && Schema.IsPlurkUrl(r.emojis[|db.emojis|].url)
  {
  }

  /** Handling the same validated body twice stores it once: with unique
      urls the second call finds the row the first one made or reused, and
      its tags are already there. */
  lemma AddEmojiTwice(db: Store, url: string, tagsStr: string, hash: string, now: int, later: int)
    requires UrlsUnique(db.emojis)
    ensures var once := AddEmoji(db, url, tagsStr, hash, now);
      AddEmoji(once, url, tagsStr, hash, later) == once
  {
    var once := AddEmoji(db, url, tagsStr, hash, now);
    AddEmojiKeepsUrlsUnique(db, url, tagsStr, hash, now);
    var f := FirstByUrl(once.emojis, url).value;
    match FirstByUrl(db.emojis, url)
    case Some(e0) =>
      UrlNamesOneRow(once.emojis, url, f, e0);
      AddTagsIdempotent(db, e0.id, tagsStr);
    case None =>
      var e := Emoji(db.nextEmojiId, url, hash, now);
      var db1 := Store(db.tags, db.emojis + [e], db.links, db.nextEmojiId + 1);
      assert e in once.emojis;
      UrlNamesOneRow(once.emojis, url, f, e);
      AddTagsIdempotent(db1, db.nextEmojiId, tagsStr);
  }

  /** Posting the same body twice stores it once. */
  lemma PostEmojiTwice(db: Store, body: EmojiIn, alive: string -> bool, now: int, later: int)
    requires PostEmoji(db, body, alive, now).Ok?
    requires UrlsUnique(db.emojis)
    ensures var once := PostEmoji(db, body, alive, now).value;
      PostEmoji(once, body, alive, later) == Ok(once)
  {
    AddEmojiTwice(db, ValidatedUrl(body, alive).value, body.tagsStr, body.averageHash, now, later);
  }

  /** With unique urls, a url names one row. */
  lemma UrlNamesOneRow(emojis: seq<Emoji>, url: string, a: Emoji, b: Emoji)
    requires UrlsUnique(emojis)
    requires a in emojis && b in emojis && a.url == url && b.url == url
    ensures a == b
  {
    var i :| 0 <= i < |emojis| && emojis[i] == a;
    var j :| 0 <= j < |emojis| && emojis[j] == b;
    assert i == j;
  }

  // ------------------------------------------------------------ POST /emoji_list

  /** A body that passes both validators. */
  predicate Acceptable(body: EmojiIn, alive: string -> bool) {
    ValidatedUrl(body, alive).Ok?
  }

  /** What the handler needs of a validated body. */
  datatype Accepted = Accepted(url: string, tagsStr: string, averageHash: string)

  /** Every body validated by `validate`, or the first error: the whole list
      is validated before the handler runs. */
  function ValidateAll(bodies: seq<EmojiIn>, validate: EmojiIn -> Result<string>): (r: Result<seq<Accepted>>)
    ensures r.Ok? <==> forall i :: 0 <= i < |bodies| ==> validate(bodies[i]).Ok?
    ensures r.Ok? ==> |r.value| == |bodies|
    ensures r.Ok? ==> forall i :: 0 <= i < |bodies| ==>
      r.value[i] == Accepted(validate(bodies[i]).value, bodies[i].tagsStr, bodies[i].averageHash)
    ensures r.Err? ==> exists i :: 0 <= i < |bodies| && validate(bodies[i]) == Err(r.error)
  {
    if |bodies| == 0 then Ok([])
    else
      match validate(bodies[0])
      case Err(e) => Err(e)
      case Ok(url) =>
        assert forall i :: 0 < i < |bodies| ==> bodies[i] == bodies[1..][i - 1];
        match ValidateAll(bodies[1..], validate)
        case Err(e) => Err(e)
        case Ok(rest) => Ok([Accepted(url, bodies[0].tagsStr, bodies[0].averageHash)] + rest)
  }

  /** The handler run on each validated body in turn; the i-th insert happens
      at time `clock(i)`. Nothing stored before is lost and join rows are only
      added; `AddEachFootprint` states what is added. */
  function AddEach(db: Store, items: seq<Accepted>, clock: nat -> int): (r: Store)
    ensures Valid(db) ==> Valid(r)
    ensures db.links <= r.links
    ensures forall e :: e in db.emojis ==> e in r.emojis
    decreases |items|
  {
    if |items| == 0 then db
    else
      var db1 := AddEmoji(db, items[0].url, items[0].tagsStr, items[0].averageHash, clock(0));
      AddEach(db1, items[1..], (i: nat) => clock(i + 1))
  }

  /** One more item, then the rest: how `AddEach` unfolds. */
  lemma AddEachUnfold(db: Store, items: seq<Accepted>, clock: nat -> int)
    requires |items| > 0
    ensures AddEach(db, items, clock)
         == AddEach(AddEmoji(db, items[0].url, items[0].tagsStr, items[0].averageHash, clock(0)),
                    items[1..], (i: nat) => clock(i + 1))
  {
  }

  /** The handler run on the items stores every item's url. */
  lemma {:induction false} AddEachStores(db: Store, items: seq<Accepted>, clock: nat -> int)
    ensures forall i :: 0 <= i < |items| ==> HasUrl(AddEach(db, items, clock).emojis, items[i].url)
    decreases |items|
  {
    if |items| > 0 {
      var db1 := AddEmoji(db, items[0].url, items[0].tagsStr, items[0].averageHash, clock(0));
      var later := (i: nat) => clock(i + 1);
      var r := AddEach(db1, items[1..], later);
      AddEachUnfold(db, items, clock);
      AddEachStores(db1, items[1..], later);
      forall i | 0 <= i < |items| ensures HasUrl(r.emojis, items[i].url) {
        if i == 0 {
          StoredStays(db1.emojis, r.emojis, items[0].url);
        } else {
          assert items[i] == items[1..][i - 1];
        }
      }
    }
  }

  /** The handler run on the items adds emoji rows only for their urls, each
      with its item's hash and insert time, and grows the tag table only by
      the items' names. */
  lemma {:induction false} AddEachFootprint(db: Store, items: seq<Accepted>, clock: nat -> int)
    ensures forall e :: e in AddEach(db, items, clock).emojis ==> e in db.emojis || ItemRow(items, clock, e)
    ensures GrowsBy(db.tags, AddEach(db, items, clock).tags, ItemNames(items))
    decreases |items|
  {
    if |items| > 0 {
      var db1 := AddEmoji(db, items[0].url, items[0].tagsStr, items[0].averageHash, clock(0));
      var later := (i: nat) => clock(i + 1);
      var r := AddEach(db1, items[1..], later);
      AddEachUnfold(db, items, clock);
      AddEachFootprint(db1, items[1..], later);
      AddEmojiRows(db, items[0].url, items[0].tagsStr, items[0].averageHash, clock(0));
      AddEachCons(db, db1, r, items, clock);
    }
  }

  /** The handler run on the items keeps urls unique. */
  lemma {:induction false} AddEachKeepsUrlsUnique(db: Store, items: seq<Accepted>, clock: nat -> int)
    requires UrlsUnique(db.emojis)
    ensures UrlsUnique(AddEach(db, items, clock).emojis)
    decreases |items|
  {
    if |items| > 0 {
      var db1 := AddEmoji(db, items[0].url, items[0].tagsStr, items[0].averageHash, clock(0));
      AddEachUnfold(db, items, clock);
      AddEmojiKeepsUrlsUnique(db, items[0].url, items[0].tagsStr, items[0].averageHash, clock(0));
      AddEachKeepsUrlsUnique(db1, items[1..], (i: nat) => clock(i + 1));
    }
  }

  /** The emojis after one more item, and after the rest, come from the
      store before or from the items; the tag table grows by their names. */
  lemma AddEachCons(db: Store, db1: Store, r: Store, items: seq<Accepted>, clock: nat -> int)
    requires |items| > 0
    requires forall e :: e in db1.emojis ==>
      e in db.emojis || (e.url == items[0].url && e.averageHash == items[0].averageHash && e.createdAt == clock(0))
    requires forall e :: e in r.emojis ==> e in db1.emojis || ItemRow(items[1..], (i: nat) => clock(i + 1), e)
    requires GrowsBy(db.tags, db1.tags, Schema.TagStrList(items[0].tagsStr))
    requires GrowsBy(db1.tags, r.tags, ItemNames(items[1..]))
    ensures forall e :: e in r.emojis ==> e in db.emojis || ItemRow(items, clock, e)
    ensures GrowsBy(db.tags, r.tags, ItemNames(items))
  {
    ItemRowCons(items, clock);
    GrowsByConcat(db.tags, db1.tags, r.tags, Schema.TagStrList(items[0].tagsStr), ItemNames(items[1..]));
  }

  /** Every parsed name of `tagsStr` has a tag, linked to the row of `url`:
      what handling one body leaves behind. */
  predicate TagsLinked(s: Store, url: string, tagsStr: string) {
    && HasUrl(s.emojis, url)
    && forall n :: n in Schema.TagStrList(tagsStr) ==>
         (FirstByName(s.tags.rows, n).Some? &&
          Link(FirstByUrl(s.emojis, url).value.id, FirstByName(s.tags.rows, n).value.id) in s.links)
  }

  /** `l` joins the row of `url` to the first tag of a parsed name of `tagsStr`. */
  predicate LinkFor(s: Store, url: string, tagsStr: string, l: Link) {
    HasUrl(s.emojis, url) && NamedLink(s.tags.rows, Schema.TagStrList(tagsStr), FirstByUrl(s.emojis, url).value.id, l)
  }

  /** `after` keeps the rows of `before` in place and all its join rows. */
  predicate Extends(before: Store, after: Store) {
    before.emojis <= after.emojis && before.tags.rows <= after.tags.rows && before.links <= after.links
  }

  /** Appending rows does not change which row a stored url finds. */
  lemma {:induction false} FirstByUrlExtend(emojis: seq<Emoji>, more: seq<Emoji>, url: string)
    requires HasUrl(emojis, url)
    ensures FirstByUrl(emojis + more, url) == FirstByUrl(emojis, url)
  {
    assert emojis == [emojis[0]] + emojis[1..];
    assert (emojis + more)[0] == emojis[0];
    if emojis[0].url != url {
      var e :| e in emojis && e.url == url;
      assert e in emojis[1..];
      assert (emojis + more)[1..] == emojis[1..] + more;
      FirstByUrlExtend(emojis[1..], more, url);
    }
  }

  /** A body's tags stay linked, and a join row stays its, in every store that
      extends the one it was handled in: later rows are only appended, so the
      first row of a url or a name does not change. */
  lemma LinkedStays(s: Store, s': Store, url: string, tagsStr: string)
    requires Extends(s, s')
    ensures TagsLinked(s, url, tagsStr) ==> TagsLinked(s', url, tagsStr)
    ensures forall l :: LinkFor(s, url, tagsStr, l) ==> LinkFor(s', url, tagsStr, l)
  {
    if HasUrl(s.emojis, url) {
      var e :| e in s.emojis && e.url == url;
      assert e in s'.emojis;
      PrefixRest(s.emojis, s'.emojis);
      FirstByUrlExtend(s.emojis, s'.emojis[|s.emojis|..], url);
      PrefixRest(s.tags.rows, s'.tags.rows);
      forall n | HasName(s.tags.rows, n)
        ensures FirstByName(s'.tags.rows, n) == FirstByName(s.tags.rows, n)
      {
        FirstByNameExtend(s.tags.rows, s'.tags.rows[|s.tags.rows|..], n);
      }
    }
  }

  /** Handling one body extends the store. */
  lemma AddEmojiExtends(db: Store, url: string, tagsStr: string, hash: string, now: int)
    ensures Extends(db, AddEmoji(db, url, tagsStr, hash, now))
  {
  }

  /** Handling the items in turn extends the store. */
  lemma {:induction false} AddEachExtends(db: Store, items: seq<Accepted>, clock: nat -> int)
    ensures Extends(db, AddEach(db, items, clock))
    decreases |items|
  {
    if |items| > 0 {
      var db1 := AddEmoji(db, items[0].url, items[0].tagsStr, items[0].averageHash, clock(0));
      AddEachUnfold(db, items, clock);
      AddEmojiExtends(db, items[0].url, items[0].tagsStr, items[0].averageHash, clock(0));
      AddEachExtends(db1, items[1..], (i: nat) => clock(i + 1));
      ExtendsTrans(db, db1, AddEach(db, items, clock));
    }
  }

  lemma ExtendsTrans(a: Store, b: Store, c: Store)
    requires Extends(a, b) && Extends(b, c)
    ensures Extends(a, c)
  {
    assert a.emojis == b.emojis[..|a.emojis|] == c.emojis[..|a.emojis|];
    assert a.tags.rows == b.tags.rows[..|a.tags.rows|] == c.tags.rows[..|a.tags.rows|];
  }

  /** After the batch handler, every item's tags are linked to its url's row,
      and every join row it added is one of those. */
  lemma {:induction false} AddEachLinks(db: Store, items: seq<Accepted>, clock: nat -> int)
    ensures forall it :: it in items ==> TagsLinked(AddEach(db, items, clock), it.url, it.tagsStr)
    ensures forall l :: l in AddEach(db, items, clock).links - db.links ==>
      exists it :: it in items && LinkFor(AddEach(db, items, clock), it.url, it.tagsStr, l)
    decreases |items|
  {
    if |items| > 0 {
      var db1 := AddEmoji(db, items[0].url, items[0].tagsStr, items[0].averageHash, clock(0));
      var later := (i: nat) => clock(i + 1);
      AddEachUnfold(db, items, clock);
      AddEachLinks(db1, items[1..], later);
      AddEachExtends(db1, items[1..], later);
      AddEachLinksCons(db, db1, AddEach(db1, items[1..], later), items);
    }
  }

  /** One item's links followed by the rest's links are the links of all the items. */
  lemma AddEachLinksCons(db: Store, db1: Store, r: Store, items: seq<Accepted>)
    requires |items| > 0 && Extends(db1, r)
    requires TagsLinked(db1, items[0].url, items[0].tagsStr)
    requires forall l :: l in db1.links - db.links ==> LinkFor(db1, items[0].url, items[0].tagsStr, l)
    requires forall it :: it in items[1..] ==> TagsLinked(r, it.url, it.tagsStr)
    requires forall l :: l in r.links - db1.links ==>
      exists it :: it in items[1..] && LinkFor(r, it.url, it.tagsStr, l)
    ensures forall it :: it in items ==> TagsLinked(r, it.url, it.tagsStr)
    ensures forall l :: l in r.links - db.links ==>
      exists it :: it in items && LinkFor(r, it.url, it.tagsStr, l)
  {
    LinkedStays(db1, r, items[0].url, items[0].tagsStr);
    assert items == [items[0]] + items[1..];
    ConsLinkFor(db, db1, r, items);
  }

  lemma ConsLinkFor(db: Store, db1: Store, r: Store, items: seq<Accepted>)
    requires |items| > 0 && db1.links <= r.links
    requires forall l :: l in db1.links - db.links ==> LinkFor(r, items[0].url, items[0].tagsStr, l)
    requires forall l :: l in r.links - db1.links ==>
      exists it :: it in items[1..] && LinkFor(r, it.url, it.tagsStr, l)
    ensures forall l :: l in r.links - db.links ==>
      exists it :: it in items && LinkFor(r, it.url, it.tagsStr, l)
  {
    assert items == [items[0]] + items[1..];
    forall l | l in r.links - db.links
      ensures exists it :: it in items && LinkFor(r, it.url, it.tagsStr, l)
    {
      if l !in db1.links {
        assert l in r.links - db1.links;
      } else {
        assert l in db1.links - db.links;
        assert items[0] in items && LinkFor(r, items[0].url, items[0].tagsStr, l);
      }
    }
  }

  /** `e` is the row the handler creates for some item: that item's url and
      hash, inserted at that item's time. */
  predicate ItemRow(items: seq<Accepted>, clock: nat -> int, e: Emoji) {
    exists i :: 0 <= i < |items| && ItemRowAt(items, clock, e, i)
  }

  /** `e` is the row created for the i-th item. */
  predicate ItemRowAt(items: seq<Accepted>, clock: nat -> int, e: Emoji, i: nat)
    requires i < |items|
  {
    e.url == items[i].url && e.averageHash == items[i].averageHash && e.createdAt == clock(i)
  }

  /** A row for one of the items is the first item's or a later one's, the
      later items being timed from the next tick on. */
  lemma ItemRowCons(items: seq<Accepted>, clock: nat -> int)
    requires |items| > 0
    ensures forall e :: ItemRow(items, clock, e) <==>
      ItemRowAt(items, clock, e, 0) || ItemRow(items[1..], (i: nat) => clock(i + 1), e)
  {
    var later := (i: nat) => clock(i + 1);
    forall e | ItemRow(items[1..], later, e) ensures ItemRow(items, clock, e) {
      var i :| 0 <= i < |items[1..]| && ItemRowAt(items[1..], later, e, i);
      assert ItemRowAt(items, clock, e, i + 1);
    }
    forall e | ItemRow(items, clock, e) && !ItemRowAt(items, clock, e, 0) ensures ItemRow(items[1..], later, e) {
      var i :| 0 <= i < |items| && ItemRowAt(items, clock, e, i);
      assert i > 0;
      assert ItemRowAt(items[1..], later, e, i - 1);
    }
  }

  /** The tag names of the items, in order: what the handler parses, item by item. */
  function ItemNames(items: seq<Accepted>): seq<string> {
    if |items| == 0 then [] else Schema.TagStrList(items[0].tagsStr) + ItemNames(items[1..])
  }

  /** The tag names of the bodies, in order. */
  function BodyNames(bodies: seq<EmojiIn>): seq<string> {
    if |bodies| == 0 then [] else Schema.TagStrList(bodies[0].tagsStr) + BodyNames(bodies[1..])
  }

  /** Items carrying the bodies' tag strings carry the bodies' names. */
  lemma {:induction false} ItemNamesOfBodies(items: seq<Accepted>, bodies: seq<EmojiIn>)
    requires |items| == |bodies|
    requires forall i :: 0 <= i < |items| ==> items[i].tagsStr == bodies[i].tagsStr
    ensures ItemNames(items) == BodyNames(bodies)
    decreases |items|
  {
    if |items| > 0 {
      ItemNamesOfBodies(items[1..], bodies[1..]);
    }
  }

  /** A url stored in a table is stored in every table that keeps its rows. */
  lemma StoredStays(before: seq<Emoji>, after: seq<Emoji>, url: string)
    requires HasUrl(before, url)
    requires forall e :: e in before ==> e in after
    ensures HasUrl(after, url)
  {
  }

  /** `POST /emoji_list` (`批量新增表符列表`): if any body fails validation
      the request is rejected and nothing is stored; otherwise every body is
      stored. */
  function PostEmojiList(db: Store, bodies: seq<EmojiIn>, alive: string -> bool, clock: nat -> int): (r: Result<Store>)
    ensures r.Err? <==> exists i :: 0 <= i < |bodies| && !Acceptable(bodies[i], alive)
    ensures r.Ok? ==> forall i :: 0 <= i < |bodies| ==> HasUrl(r.value.emojis, ValidatedUrl(bodies[i], alive).value)
    ensures r.Ok? ==> forall e :: e in db.emojis ==> e in r.value.emojis
    ensures r.Ok? ==> forall e :: e in r.value.emojis ==>
      e in db.emojis || exists i :: 0 <= i < |bodies| && BodyRow(bodies, alive, clock, e, i)
    ensures r.Ok? ==> GrowsBy(db.tags, r.value.tags, BodyNames(bodies)) && db.links <= r.value.links
    ensures r.Ok? ==> forall i :: 0 <= i < |bodies| ==>
      TagsLinked(r.value, ValidatedUrl(bodies[i], alive).value, bodies[i].tagsStr)
    ensures r.Ok? ==> forall l :: l in r.value.links - db.links ==>
      exists i :: 0 <= i < |bodies| && LinkFor(r.value, ValidatedUrl(bodies[i], alive).value, bodies[i].tagsStr, l)
    ensures r.Ok? && UrlsUnique(db.emojis) ==> UrlsUnique(r.value.emojis)
    ensures r.Ok? && Valid(db) ==> Valid(r.value)
  {
    match ValidateAll(bodies, (b: EmojiIn) => ValidatedUrl(b, alive))
    case Err(e) => Err(e)
    case Ok(items) =>
      BatchEmojis(db, bodies, alive, items, clock);
      BatchLinks(db, bodies, alive, items, clock);
      Ok(AddEach(db, items, clock))
  }

  /** `e` is the row created for the i-th body: its validated url and its
      hash, inserted at the i-th time. */
  predicate BodyRow(bodies: seq<EmojiIn>, alive: string -> bool, clock: nat -> int, e: Emoji, i: nat)
    requires i < |bodies|
  {
    && ValidatedUrl(bodies[i], alive).Ok?
    && e.url == ValidatedUrl(bodies[i], alive).value
    && e.averageHash == bodies[i].averageHash
    && e.createdAt == clock(i)
  }

  /** The i-th item is the i-th body with its validated url. */
  predicate AcceptedAs(items: seq<Accepted>, bodies: seq<EmojiIn>, alive: string -> bool) {
    && |items| == |bodies|
    && forall i :: 0 <= i < |items| ==>
         ValidatedUrl(bodies[i], alive).Ok? &&
         items[i] == Accepted(ValidatedUrl(bodies[i], alive).value, bodies[i].tagsStr, bodies[i].averageHash)
  }

  /** The emoji table after the batch, in terms of the bodies. */
  lemma BatchEmojis(db: Store, bodies: seq<EmojiIn>, alive: string -> bool, items: seq<Accepted>, clock: nat -> int)
    requires AcceptedAs(items, bodies, alive)
    ensures forall i :: 0 <= i < |bodies| ==> HasUrl(AddEach(db, items, clock).emojis, ValidatedUrl(bodies[i], alive).value)
    ensures forall e :: e in AddEach(db, items, clock).emojis ==>
      e in db.emojis || exists i :: 0 <= i < |bodies| && BodyRow(bodies, alive, clock, e, i)
    ensures UrlsUnique(db.emojis) ==> UrlsUnique(AddEach(db, items, clock).emojis)
  {
    var r := AddEach(db, items, clock);
    AddEachStores(db, items, clock);
    AddEachFootprint(db, items, clock);
    assert UrlsUnique(db.emojis) ==> UrlsUnique(r.emojis) by {
      if UrlsUnique(db.emojis) {
        AddEachKeepsUrlsUnique(db, items, clock);
      }
    }
    forall e | e in r.emojis && !(e in db.emojis)
      ensures exists i :: 0 <= i < |bodies| && BodyRow(bodies, alive, clock, e, i)
    {
      var i :| 0 <= i < |items| && ItemRowAt(items, clock, e, i);
      assert BodyRow(bodies, alive, clock, e, i);
    }
  }

  /** The tag table and join rows after the batch, in terms of the bodies. */
  lemma BatchLinks(db: Store, bodies: seq<EmojiIn>, alive: string -> bool, items: seq<Accepted>, clock: nat -> int)
    requires AcceptedAs(items, bodies, alive)
    ensures GrowsBy(db.tags, AddEach(db, items, clock).tags, BodyNames(bodies))
    ensures forall i :: 0 <= i < |bodies| ==>
      TagsLinked(AddEach(db, items, clock), ValidatedUrl(bodies[i], alive).value, bodies[i].tagsStr)
    ensures forall l :: l in AddEach(db, items, clock).links - db.links ==>
      exists i :: 0 <= i < |bodies| && LinkFor(AddEach(db, items, clock), ValidatedUrl(bodies[i], alive).value, bodies[i].tagsStr, l)
  {
    AddEachFootprint(db, items, clock);
    ItemNamesOfBodies(items, bodies);
    AddEachLinks(db, items, clock);
    BodiesLinked(AddEach(db, items, clock), bodies, alive, items);
    BodiesLinkRows(db, AddEach(db, items, clock), bodies, alive, items);
  }

  lemma BodiesLinked(r: Store, bodies: seq<EmojiIn>, alive: string -> bool, items: seq<Accepted>)
    requires AcceptedAs(items, bodies, alive)
    requires forall it :: it in items ==> TagsLinked(r, it.url, it.tagsStr)
    ensures forall i :: 0 <= i < |bodies| ==> TagsLinked(r, ValidatedUrl(bodies[i], alive).value, bodies[i].tagsStr)
  {
    forall i | 0 <= i < |bodies| ensures TagsLinked(r, ValidatedUrl(bodies[i], alive).value, bodies[i].tagsStr) {
      assert items[i] in items;
    }
  }

  lemma BodiesLinkRows(db: Store, r: Store, bodies: seq<EmojiIn>, alive: string -> bool, items: seq<Accepted>)
    requires AcceptedAs(items, bodies, alive)
    requires forall l :: l in r.links - db.links ==>
      exists it :: it in items && LinkFor(r, it.url, it.tagsStr, l)
    ensures forall l :: l in r.links - db.links ==>
      exists i :: 0 <= i < |bodies| && LinkFor(r, ValidatedUrl(bodies[i], alive).value, bodies[i].tagsStr, l)
  {
    forall l | l in r.links - db.links
      ensures exists i :: 0 <= i < |bodies| && LinkFor(r, ValidatedUrl(bodies[i], alive).value, bodies[i].tagsStr, l)
    {
      var it :| it in items && LinkFor(r, it.url, it.tagsStr, l);
      var i :| 0 <= i < |items| && items[i] == it;
      assert it.url == ValidatedUrl(bodies[i], alive).value;
    }
  }

  /** A one-body list stores exactly what `POST /emoji` stores. */
  lemma PostEmojiListSingle(db: Store, body: EmojiIn, alive: string -> bool, clock: nat -> int)
    requires Acceptable(body, alive)
    ensures PostEmojiList(db, [body], alive, clock) == PostEmoji(db, body, alive, clock(0))
  {
    var url := ValidatedUrl(body, alive).value;
    var item := Accepted(url, body.tagsStr, body.averageHash);
    var v := ValidateAll([body], (b: EmojiIn) => ValidatedUrl(b, alive));
    assert v.Ok? && |v.value| == 1 && v.value[0] == item;
    assert v.value == [item];
    AddEachSingle(db, item, clock);
  }

  /** Handling a list of one item is handling that item. */
  lemma AddEachSingle(db: Store, item: Accepted, clock: nat -> int)
    ensures AddEach(db, [item], clock) == AddEmoji(db, item.url, item.tagsStr, item.averageHash, clock(0))
  {
    var db1 := AddEmoji(db, item.url, item.tagsStr, item.averageHash, clock(0));
    assert [item][1..] == [];
    assert AddEach(db, [item], clock) == AddEach(db1, [], (i: nat) => clock(i + 1));
  }

  // ------------------------------------------------------------ DELETE /emoji, DELETE /tag

  /** `DELETE /emoji` (`刪除表符`): an absent id changes nothing; otherwise the
      emoji and its join rows go, and nothing else changes. */
  function DeleteEmoji(db: Store, id: nat): (r: Store)
    ensures !HasEmoji(db.emojis, id) ==> r == db
    ensures !HasEmoji(r.emojis, id)
    ensures forall e :: e in r.emojis <==> e in db.emojis && e.id != id
    ensures HasEmoji(db.emojis, id) ==> forall l :: l in r.links <==> l in db.links && l.emojiId != id
    ensures r.tags == db.tags && r.nextEmojiId == db.nextEmojiId
  {
    match FirstById(db.emojis, id)
    case None => db
    case Some(_) =>
      Store(db.tags, WithoutKey(db.emojis, EmojiId, id),
            (set l | l in db.links && l.emojiId != id), db.nextEmojiId)
  }

  /** Deleting an emoji keeps the store valid. */
  lemma DeleteEmojiValid(db: Store, id: nat)
    requires Valid(db)
    ensures Valid(DeleteEmoji(db, id))
  {
    if HasEmoji(db.emojis, id) {
      var r := DeleteEmoji(db, id);
      WithoutKeyDistinct(db.emojis, EmojiId, id);
      forall l | l in r.links ensures HasEmoji(r.emojis, l.emojiId) {
        var e :| e in db.emojis && e.id == l.emojiId;
        assert e in r.emojis;
      }
    }
  }

  /** Deleting an emoji keeps urls unique. */
  lemma DeleteEmojiKeepsUrlsUnique(db: Store, id: nat)
    requires UrlsUnique(db.emojis)
    ensures UrlsUnique(DeleteEmoji(db, id).emojis)
  {
    WithoutKeyUrlsUnique(db.emojis, id);
  }

  /** Deleting rows by id keeps urls unique. */
  lemma {:induction false} WithoutKeyUrlsUnique(s: seq<Emoji>, id: nat)
    requires UrlsUnique(s)
    ensures UrlsUnique(WithoutKey(s, EmojiId, id))
  {
    if |s| > 0 {
      var rest := WithoutKey(s[1..], EmojiId, id);
      assert UrlsUnique(s[1..]) by {
        assert forall i :: 0 <= i < |s[1..]| ==> s[1..][i] == s[i + 1];
      }
      WithoutKeyUrlsUnique(s[1..], id);
      if s[0].id != id {
        forall j | 0 <= j < |rest| ensures s[0].url != rest[j].url {
          assert rest[j] in s[1..];
          var m :| 0 <= m < |s[1..]| && s[1..][m] == rest[j];
          assert s[m + 1] == rest[j];
        }
        var r := [s[0]] + rest;
        forall i, j | 0 <= i < j < |r| ensures r[i].url != r[j].url {
          if i > 0 {
            assert r[i] == rest[i - 1] && r[j] == rest[j - 1];
          }
        }
      }
    }
  }

  /** `DELETE /tag` (`刪除標籤`): an absent id changes nothing; otherwise the
      tag and its join rows go, the emojis that carried it stay. */
  function DeleteTag(db: Store, id: nat): (r: Store)
    ensures !HasTag(db.tags.rows, id) ==> r == db
    ensures !HasTag(r.tags.rows, id)
    ensures forall t :: t in r.tags.rows <==> t in db.tags.rows && t.id != id
    ensures HasTag(db.tags.rows, id) ==> forall l :: l in r.links <==> l in db.links && l.tagId != id
    ensures r.emojis == db.emojis && r.tags.nextId == db.tags.nextId && r.nextEmojiId == db.nextEmojiId
  {
    if !HasTag(db.tags.rows, id) then db
    else
      Store(TagTable(WithoutKey(db.tags.rows, TagId, id), db.tags.nextId), db.emojis,
            (set l | l in db.links && l.tagId != id), db.nextEmojiId)
  }

  /** Deleting a tag keeps the store valid. */
  lemma DeleteTagValid(db: Store, id: nat)
    requires Valid(db)
    ensures Valid(DeleteTag(db, id))
  {
    if HasTag(db.tags.rows, id) {
      var r := DeleteTag(db, id);
      var rows := r.tags.rows;
      assert KeysDistinct(db.tags.rows, TagId) by {
        forall i, j | 0 <= i < j < |db.tags.rows| ensures TagId(db.tags.rows[i]) != TagId(db.tags.rows[j]) {
        }
      }
      WithoutKeyDistinct(db.tags.rows, TagId, id);
      forall i, j | 0 <= i < j < |rows| ensures rows[i].id != rows[j].id {
        assert TagId(rows[i]) != TagId(rows[j]);
      }
      forall i | 0 <= i < |rows| ensures rows[i].id < r.tags.nextId {
        assert rows[i] in db.tags.rows;
      }
      forall l | l in r.links ensures HasTag(rows, l.tagId) {
        var t :| t in db.tags.rows && t.id == l.tagId;
        assert t in rows;
      }
    }
  }

  // ------------------------------------------------------------ PUT /emoji

  /** What `PUT /emoji` answers: 404, or the emoji with the tags it now carries. */
  datatype Response = NotFound | EmojiOut(id: nat, url: string, tagList: seq<Tag>)

  /** The tags emoji `id` carries, in tag-table order (the prefetched `tag_list`). */
  function TagsOf(rows: seq<Tag>, links: set<Link>, id: nat): (r: seq<Tag>)
    ensures forall t :: t in r <==> t in rows && Link(id, t.id) in links
  {
    if |rows| == 0 then []
    else
      assert rows == [rows[0]] + rows[1..];
      (if Link(id, rows[0].id) in links then [rows[0]] else []) + TagsOf(rows[1..], links, id)
  }

  /** `PUT /emoji` (`更新表符_追加標籤`): 404 and no change for an unknown id;
      otherwise the tags are added and the emoji is answered with a tag list
      that holds a tag of every name asked for. */
  function UpdateEmojiAddTags(db: Store, id: nat, tagsStr: string): (r: (Store, Response))
    ensures r.1.NotFound? <==> !HasEmoji(db.emojis, id)
    ensures r.1.NotFound? ==> r.0 == db
    ensures r.1.EmojiOut? ==> r.1.id == id && r.0.emojis == db.emojis && db.links <= r.0.links
    ensures r.1.EmojiOut? ==> r.1.url == FirstById(db.emojis, id).value.url
    ensures r.1.EmojiOut? ==> GrowsBy(db.tags, r.0.tags, Schema.TagStrList(tagsStr)) && r.0.nextEmojiId == db.nextEmojiId
    ensures r.1.EmojiOut? ==> forall l :: l in r.0.links <==>
      l in db.links || NamedLink(r.0.tags.rows, Schema.TagStrList(tagsStr), id, l)
    ensures r.1.EmojiOut? ==> forall n :: n in Schema.TagStrList(tagsStr) ==>
      exists t :: t in r.1.tagList && t.name == n
    ensures r.1.EmojiOut? ==> forall t :: t in r.1.tagList <==> t in r.0.tags.rows && Link(id, t.id) in r.0.links
    ensures Valid(db) ==> Valid(r.0)
  {
    match FirstById(db.emojis, id)
    case None => (db, NotFound)
    case Some(e) =>
      var db' := AddTags(db, id, tagsStr);
      var out := EmojiOut(id, e.url, TagsOf(db'.tags.rows, db'.links, id));
      assert forall n :: n in Schema.TagStrList(tagsStr) ==> FirstByName(db'.tags.rows, n).value in out.tagList;
      (db', out)
  }
}

=== FILE: paging.dfy ===
/** The ordering and windowing of the emoji listing: `order_by('-created_at')`,
    then `.offset(n).limit(m)`, with the page number turned into an offset. */
module Paging {
  import opened DbModels

  /** Page numbers start at one (`conint(ge=1)` on the query parameter). */
  type PageNo = p: int | p >= 1 witness 1

  /** `offset_n = (page - 1) * page_size_n`, never negative since pages start at one. */
  function Offset(page: PageNo, pageSize: nat): (offset: nat)
    ensures pageSize > 0 ==> offset % pageSize == 0 && offset / pageSize == page - 1
  {
    assert pageSize > 0 ==> ((page - 1) * pageSize) / pageSize == page - 1 && ((page - 1) * pageSize) % pageSize == 0 by {
      if pageSize > 0 {
        MulDivExact(page - 1, pageSize);
      }
    }
    (page - 1) * pageSize
  }

  /** `k` whole pages of `n` entries divide back into `k`, with nothing left over. */
  lemma {:induction false} MulDivExact(k: nat, n: nat)
    requires n > 0
    ensures (k * n) / n == k && (k * n) % n == 0
  {
    if k > 0 {
      MulDivExact(k - 1, n);
      assert k * n == (k - 1) * n + n;
    }
  }

  /** The first page starts at zero and each page starts one page size after
      the one before. */
  lemma OffsetStep(page: PageNo, pageSize: nat)
    ensures Offset(1, pageSize) == 0
    ensures Offset(page + 1, pageSize) == Offset(page, pageSize) + pageSize
  {
    calc {
      Offset(page + 1, pageSize);
      page * pageSize;
      (page - 1) * pageSize + pageSize;
    }
  }

  /** No emoji is newer than one listed before it. */
  predicate NonIncreasing(s: seq<Emoji>) {
    forall i, j :: 0 <= i < j < |s| ==> s[i].createdAt >= s[j].createdAt
  }

  /** No emoji is listed twice. */
  predicate Distinct(s: seq<Emoji>) {
    forall i, j :: 0 <= i < j < |s| ==> s[i] != s[j]
  }

  /** `e` placed into a newest-first list after every emoji at least as new. */
  function Insert(e: Emoji, s: seq<Emoji>): (r: seq<Emoji>)
    ensures multiset(r) == multiset(s) + multiset{e}
  {
    if |s| == 0 then [e]
    else if s[0].createdAt >= e.createdAt then
      assert s == [s[0]] + s[1..];
      [s[0]] + Insert(e, s[1..])
    else
      [e] + s
  }

  /** An emoji of `Insert(e, s)` is `e` or one of `s`. */
  lemma InsertMembers(e: Emoji, s: seq<Emoji>, x: Emoji)
    requires x in Insert(e, s)
    ensures x == e || x in s
  {
    assert x in multiset(Insert(e, s));
  }

  lemma {:induction false} InsertNonIncreasing(e: Emoji, s: seq<Emoji>)
    requires NonIncreasing(s)
    ensures NonIncreasing(Insert(e, s))
  {
    if |s| > 0 && s[0].createdAt >= e.createdAt {
      var rest := Insert(e, s[1..]);
      InsertNonIncreasing(e, s[1..]);
      forall k | 0 <= k < |rest| ensures s[0].createdAt >= rest[k].createdAt {
        InsertMembers(e, s[1..], rest[k]);
      }
    }
  }

  lemma {:induction false} InsertDistinct(e: Emoji, s: seq<Emoji>)
    requires Distinct(s) && e !in s
    ensures Distinct(Insert(e, s))
  {
    if |s| > 0 && s[0].createdAt >= e.createdAt {
      var rest := Insert(e, s[1..]);
      assert e !in s[1..];
      InsertDistinct(e, s[1..]);
      forall k | 0 <= k < |rest| ensures s[0] != rest[k] {
        InsertMembers(e, s[1..], rest[k]);
      }
    }
  }

  /** `order_by('-created_at')`: the same emojis, newest first. Emojis created
      at the same instant come out in an order of the model's choosing, since
      the query gives no tie-breaker. */
  function SortByCreatedDesc(s: seq<Emoji>): (r: seq<Emoji>)
    ensures multiset(r) == multiset(s)
    ensures NonIncreasing(r)
    ensures Distinct(s) ==> Distinct(r)
  {
    if |s| == 0 then []
    else
      assert s == [s[0]] + s[1..];
      var rest := SortByCreatedDesc(s[1..]);
      InsertNonIncreasing(s[0], rest);
      assert Distinct(s) ==> Distinct(Insert(s[0], rest)) by {
        if Distinct(s) {
          assert Distinct(s[1..]) && s[0] !in s[1..];
          assert s[0] !in multiset(rest);
          InsertDistinct(s[0], rest);
        }
      }
      Insert(s[0], rest)
  }

  /** `.offset(offset).limit(limit)`: at most `limit` consecutive entries
      starting at position `offset`, fewer near the end, none past it. */
  function Window(s: seq<Emoji>, offset: nat, limit: nat): (r: seq<Emoji>)
    ensures |r| <= limit
    ensures |r| == if offset >= |s| then 0 else Min(limit, |s| - offset)
    ensures forall i :: 0 <= i < |r| ==> r[i] == s[offset + i]
  {
    var lo := Min(offset, |s|);
    s[lo..Min(offset + limit, |s|)]
  }

  function Min(a: int, b: int): int {
    if a <= b then a else b
  }

  /** Two consecutive windows of one size make the window of twice the size. */
  lemma WindowsConcatenate(s: seq<Emoji>, offset: nat, limit: nat)
    ensures Window(s, offset, limit) + Window(s, offset + limit, limit)
         == Window(s, offset, 2 * limit)
  {
    var a, b := Window(s, offset, limit), Window(s, offset + limit, limit);
    var c := Window(s, offset, 2 * limit);
    assert |a| + |b| == |c|;
    forall i | 0 <= i < |c| ensures (a + b)[i] == c[i] {
      if i >= |a| { assert |a| == limit; }
    }
  }

  /** Consecutive pages follow on from one another. */
  lemma ConsecutivePages(s: seq<Emoji>, page: PageNo, pageSize: nat)
    ensures Window(s, Offset(page, pageSize), pageSize) + Window(s, Offset(page + 1, pageSize), pageSize)
         == Window(s, Offset(page, pageSize), 2 * pageSize)
  {
    WindowsConcatenate(s, Offset(page, pageSize), pageSize);
  }

  /** A later page starts at least one page size after an earlier one. */
  lemma {:induction false} OffsetsApart(p: PageNo, q: PageNo, pageSize: nat)
    requires p < q
    ensures Offset(p, pageSize) + pageSize <= Offset(q, pageSize)
    decreases q - p
  {
    OffsetStep(q - 1, pageSize);
    if p + 1 < q {
      OffsetsApart(p, q - 1, pageSize);
    }
  }

  /** Different pages of a list without repeats share no emoji. */
  lemma PagesDisjoint(s: seq<Emoji>, p: PageNo, q: PageNo, pageSize: nat, e: Emoji)
    requires Distinct(s)
    requires p != q
    requires e in Window(s, Offset(p, pageSize), pageSize)
    ensures e !in Window(s, Offset(q, pageSize), pageSize)
  {
    var a := Window(s, Offset(p, pageSize), pageSize);
    var b := Window(s, Offset(q, pageSize), pageSize);
    var i :| 0 <= i < |a| && a[i] == e;
    if p < q { OffsetsApart(p, q, pageSize); } else { OffsetsApart(q, p, pageSize); }
    forall j | 0 <= j < |b| ensures b[j] != e {
      var x, y := Offset(p, pageSize) + i, Offset(q, pageSize) + j;
      assert a[i] == s[x] && b[j] == s[y];
    }
  }

  /** Strictly newest first: no two emojis share a creation time. */
  predicate StrictlyNewestFirst(s: seq<Emoji>) {
    forall i, j :: 0 <= i < j < |s| ==> s[i].createdAt > s[j].createdAt
  }

  /** Without ties there is one newest-first order: two strictly newest-first
      lists of the same emojis are the same list. */
  lemma {:induction false} NewestFirstUnique(a: seq<Emoji>, b: seq<Emoji>)
    requires multiset(a) == multiset(b)
    requires StrictlyNewestFirst(a) && StrictlyNewestFirst(b)
    ensures a == b
  {
    assert |a| == |multiset(a)| == |multiset(b)| == |b|;
    if |a| > 0 {
      NewestHeadsAgree(a, b);
      var x := a[0];
      assert a == [x] + a[1..] && b == [x] + b[1..];
      MultisetTail(a);
      MultisetTail(b);
      StrictTail(a);
      StrictTail(b);
      NewestFirstUnique(a[1..], b[1..]);
    }
  }

  /** Both lists start with the newest emoji. */
  lemma NewestHeadsAgree(a: seq<Emoji>, b: seq<Emoji>)
    requires |a| > 0 && |b| > 0 && multiset(a) == multiset(b)
    requires StrictlyNewestFirst(a) && StrictlyNewestFirst(b)
    ensures a[0] == b[0]
  {
    assert a[0] in multiset(b) && b[0] in multiset(a);
    var j :| 0 <= j < |b| && b[j] == a[0];
    var i :| 0 <= i < |a| && a[i] == b[0];
    assert i > 0 ==> a[0].createdAt > a[i].createdAt;
    assert j > 0 ==> b[0].createdAt > b[j].createdAt;
  }

  lemma StrictTail(s: seq<Emoji>)
    requires |s| > 0 && StrictlyNewestFirst(s)
    ensures StrictlyNewestFirst(s[1..])
  {
    forall i, j | 0 <= i < j < |s[1..]| ensures s[1..][i].createdAt > s[1..][j].createdAt {
      assert s[1..][i] == s[i + 1] && s[1..][j] == s[j + 1];
    }
  }

  lemma MultisetTail(s: seq<Emoji>)
    requires |s| > 0
    ensures multiset(s[1..]) == multiset(s) - multiset{s[0]}
  {
    assert s == [s[0]] + s[1..];
  }

  /** A window of a newest-first list is newest first. */
  lemma WindowNonIncreasing(s: seq<Emoji>, offset: nat, limit: nat)
    requires NonIncreasing(s)
    ensures NonIncreasing(Window(s, offset, limit))
  {
  }
}

=== FILE: py_str.dfy ===
/** The handful of Python `str` operations the catalog's parsers are built from:
    `split` on one separator character, `join`, `replace` of one character,
    `strip()` with no argument, and `find` / `in` for a substring. */
module PyStr {

  /** Python's `str.isspace()` on one character: the characters `str.strip()`
      with no argument removes. It includes the ASCII space and U+3000. */
  predicate IsWs(c: char) {
    || c == ' '
    || ('\t' <= c <= '\r')
    || ('\U{1c}' <= c <= '\U{1f}')
    || c == '\U{85}'
    || c == '\U{a0}'
    || c == '\U{1680}'
    || ('\U{2000}' <= c <= '\U{200a}')
    || c == '\U{2028}'
    || c == '\U{2029}'
    || c == '\U{202f}'
    || c == '\U{205f}'
    || c == '\U{3000}'
  }

  /** A string with no whitespace at either end, as `strip()` leaves it. */
  predicate Trimmed(s: string) {
    |s| == 0 || (!IsWs(s[0]) && !IsWs(s[|s| - 1]))
  }

  predicate AllWs(s: string) {
    forall i :: 0 <= i < |s| ==> IsWs(s[i])
  }

  /** Number of occurrences of `c` in `s`. */
  function Count(s: string, c: char): nat {
    if |s| == 0 then 0 else (if s[0] == c then 1 else 0) + Count(s[1..], c)
  }

  lemma {:induction false} CountConcat(a: string, b: string, c: char)
    ensures Count(a + b, c) == Count(a, c) + Count(b, c)
  {
    if |a| == 0 {
      assert a + b == b;
    } else {
      assert (a + b)[1..] == a[1..] + b;
      CountConcat(a[1..], b, c);
    }
  }

  lemma {:induction false} CountAbsent(s: string, c: char)
    requires c !in s
    ensures Count(s, c) == 0
  {
    if |s| > 0 {
      assert s[0] == s[0..1][0];
      CountAbsent(s[1..], c);
    }
  }

  // ---------------------------------------------------------------- join / split

  /** `sep.join(parts)`: the parts with one `sep` between neighbours. */
  function Join(parts: seq<string>, sep: char): string
  {
    if |parts| == 0 then []
    else if |parts| == 1 then parts[0]
    else parts[0] + [sep] + Join(parts[1..], sep)
  }

  /** The join starts with the first part, and joining separator-free parts
      puts exactly one separator between neighbours. */
  lemma {:induction false} JoinShape(parts: seq<string>, sep: char)
    requires |parts| > 0
    ensures parts[0] <= Join(parts, sep)
    ensures (forall i :: 0 <= i < |parts| ==> sep !in parts[i]) ==> Count(Join(parts, sep), sep) == |parts| - 1
  {
    assert sep !in parts[0] ==> Count(parts[0], sep) == 0 by {
      if sep !in parts[0] {
        CountAbsent(parts[0], sep);
      }
    }
    if |parts| > 1 {
      var rest := Join(parts[1..], sep);
      JoinShape(parts[1..], sep);
      assert forall i :: 0 <= i < |parts[1..]| ==> parts[1..][i] == parts[i + 1];
      CountConcat(parts[0] + [sep], rest, sep);
      CountConcat(parts[0], [sep], sep);
      assert Count([sep], sep) == 1;
    }
  }

  /** `s.split(sep)` for a one-character separator: always one piece more than
      there are separators, including the empty pieces around adjacent or
      outer separators; `"".split(",")` is `[""]`. */
  function Split(s: string, sep: char): (parts: seq<string>)
    ensures |parts| == Count(s, sep) + 1
    ensures forall i :: 0 <= i < |parts| ==> sep !in parts[i]
    ensures Join(parts, sep) == s
  {
    if |s| == 0 then [[]]
    else
      var rest := Split(s[1..], sep);
      if s[0] == sep then
        assert s == [sep] + s[1..];
        [[]] + rest
      else
        var parts := [[s[0]] + rest[0]] + rest[1..];
        assert parts[1..] == rest[1..];
        assert s == [s[0]] + s[1..];
        assert Join(parts, sep) == s by {
          if |rest| > 1 {
            assert Join(rest, sep) == rest[0] + [sep] + Join(rest[1..], sep);
          }
        }
        parts
  }

  /** Splitting a string that holds no separator yields the string itself. */
  lemma SplitNoSep(s: string, sep: char)
    requires sep !in s
    ensures Split(s, sep) == [s]
  {
    CountAbsent(s, sep);
    var parts := Split(s, sep);
    assert |parts| == 1;
    assert Join(parts, sep) == parts[0];
  }

  /** Splitting distributes over a separator placed between two strings. */
  lemma {:induction false} SplitConcat(a: string, b: string, sep: char)
    ensures Split(a + [sep] + b, sep) == Split(a, sep) + Split(b, sep)
  {
    if |a| == 0 {
      assert a + [sep] + b == [sep] + b;
      assert ([sep] + b)[1..] == b;
    } else {
      var s := a + [sep] + b;
      assert s[0] == a[0];
      assert s[1..] == a[1..] + [sep] + b;
      SplitConcat(a[1..], b, sep);
    }
  }

  /** Round trip: splitting the join of separator-free parts gives the parts back. */
  lemma {:induction false} SplitJoin(parts: seq<string>, sep: char)
    requires |parts| >= 1
    requires forall i :: 0 <= i < |parts| ==> sep !in parts[i]
    ensures Split(Join(parts, sep), sep) == parts
  {
    if |parts| == 1 {
      SplitNoSep(parts[0], sep);
    } else {
      SplitJoin(parts[1..], sep);
      SplitConcat(parts[0], Join(parts[1..], sep), sep);
      SplitNoSep(parts[0], sep);
      assert parts == [parts[0]] + parts[1..];
    }
  }

  // ---------------------------------------------------------------- replace

  /** `s.replace(a, b)` for single characters `a` and `b`. */
  function ReplaceChar(s: string, a: char, b: char): (r: string)
    ensures |r| == |s|
    ensures forall i :: 0 <= i < |s| ==> r[i] == (if s[i] == a then b else s[i])
  {
    if |s| == 0 then [] else [if s[0] == a then b else s[0]] + ReplaceChar(s[1..], a, b)
  }

  /** `s.replace(c, "")`: every `c` deleted, the other characters kept in order. */
  function RemoveChar(s: string, c: char): (r: string)
    ensures c !in r
    ensures |r| == |s| - Count(s, c)
    ensures forall x :: x in r ==> x in s
    ensures forall x :: x != c ==> multiset(r)[x] == multiset(s)[x]
  {
    if |s| == 0 then []
    else
      assert s == [s[0]] + s[1..];
      if s[0] == c then RemoveChar(s[1..], c)
      else [s[0]] + RemoveChar(s[1..], c)
  }

  /** Deleting from one character keeps it unless it is the one deleted. */
  lemma RemoveCharSingle(x: char, c: char)
    ensures RemoveChar([x], c) == if x == c then [] else [x]
  {
    assert [x][1..] == [];
  }

  /** Deleting distributes over concatenation, so the kept characters stay in
      their order; with `RemoveCharSingle` this determines `RemoveChar`. */
  lemma {:induction false} RemoveCharConcat(a: string, b: string, c: char)
    ensures RemoveChar(a + b, c) == RemoveChar(a, c) + RemoveChar(b, c)
  {
    if |a| == 0 {
      assert a + b == b;
    } else {
      var head := if a[0] == c then [] else [a[0]];
      var t := a[1..] + b;
      assert (a + b)[0] == a[0] && (a + b)[1..] == t;
      RemoveCharUnfold(a + b, c);
      RemoveCharUnfold(a, c);
      RemoveCharConcat(a[1..], b, c);
      calc {
        RemoveChar(a + b, c);
        head + RemoveChar(t, c);
        head + (RemoveChar(a[1..], c) + RemoveChar(b, c));
        (head + RemoveChar(a[1..], c)) + RemoveChar(b, c);
      }
    }
  }

  /** One step of `RemoveChar`: the first character, unless deleted, then the rest. */
  lemma RemoveCharUnfold(s: string, c: char)
    requires |s| > 0
    ensures RemoveChar(s, c) == (if s[0] == c then [] else [s[0]]) + RemoveChar(s[1..], c)
  {
  }

  lemma {:induction false} RemoveAbsent(s: string, c: char)
    requires c !in s
    ensures RemoveChar(s, c) == s
  {
    if |s| > 0 {
      assert s[0] in s;
      assert s == [s[0]] + s[1..];
      RemoveAbsent(s[1..], c);
    }
  }

  // ---------------------------------------------------------------- strip

  /** The first position at or after `i` that is not whitespace, or `|s|`. */
  function SkipWs(s: string, i: nat): (k: nat)
    requires i <= |s|
    ensures i <= k <= |s|
    ensures forall j :: i <= j < k ==> IsWs(s[j])
    ensures k < |s| ==> !IsWs(s[k])
    decreases |s| - i
  {
    if i < |s| && IsWs(s[i]) then SkipWs(s, i + 1) else i
  }

  /** The end of `s[lo..j]` once its trailing whitespace is cut off. */
  function SkipWsBack(s: string, lo: nat, j: nat): (k: nat)
    requires lo <= j <= |s|
    ensures lo <= k <= j
    ensures forall m :: k <= m < j ==> IsWs(s[m])
    ensures k > lo ==> !IsWs(s[k - 1])
    decreases j
  {
    if j > lo && IsWs(s[j - 1]) then SkipWsBack(s, lo, j - 1) else j
  }

  /** Where `Strip(s)` begins inside `s`: what `lstrip()` skips. */
  function StripStart(s: string): nat
    ensures StripStart(s) <= |s|
  {
    SkipWs(s, 0)
  }

  /** `s.strip()`: the longest middle part of `s` bounded by non-whitespace,
      or the empty string when `s` is whitespace only. Leading whitespace is
      skipped first, as `lstrip()` does, then trailing whitespace, as
      `rstrip()` does. */
  function Strip(s: string): (r: string)
    ensures Trimmed(r)
    ensures StripStart(s) + |r| <= |s| && r == s[StripStart(s)..StripStart(s) + |r|]
    ensures forall i :: 0 <= i < StripStart(s) ==> IsWs(s[i])
    ensures forall i :: StripStart(s) + |r| <= i < |s| ==> IsWs(s[i])
    ensures IsStripOf(r, s)
  {
    var a := SkipWs(s, 0);
    var e := SkipWsBack(s, a, |s|);
    s[a..e]
  }

  /** `r` is what `strip()` leaves of `s`: the slice of `s` that starts at
      its first non-whitespace character, has no whitespace at either end,
      and is followed by whitespace only. */
  predicate IsStripOf(r: string, s: string) {
    var k := StripStart(s);
    && k + |r| <= |s| && r == s[k..k + |r|]
    && Trimmed(r)
    && (forall i :: k + |r| <= i < |s| ==> IsWs(s[i]))
  }

  /** Only one string is what `strip()` leaves of `s`, and `Strip` returns it. */
  lemma StripUnique(s: string, r: string)
    requires IsStripOf(r, s)
    ensures r == Strip(s)
  {
    var t := Strip(s);
    var k := StripStart(s);
    if |r| > 0 {
      assert r[|r| - 1] == s[k + |r| - 1];
    }
    if |t| > 0 {
      assert t[|t| - 1] == s[k + |t| - 1];
    }
    assert |r| == |t|;
  }

  /** Every character `strip()` keeps comes from its input. */
  lemma StripChars(s: string, c: char)
    requires c in Strip(s)
    ensures c in s
  {
    var r := Strip(s);
    var k :| 0 <= k < |r| && r[k] == c;
    assert s[StripStart(s) + k] == c;
  }

  /** `strip()` leaves a trimmed string alone. */
  lemma StripTrimmed(s: string)
    requires Trimmed(s)
    ensures Strip(s) == s
  {
    var r := Strip(s);
    if |s| > 0 {
      assert !IsWs(s[0]) && !IsWs(s[|s| - 1]);
    }
  }

  /** `strip()` yields the empty string exactly when its input is all whitespace. */
  lemma StripEmpty(s: string)
    ensures Strip(s) == [] <==> AllWs(s)
  {
    var r := Strip(s);
    if r == [] {
      forall i | 0 <= i < |s| ensures IsWs(s[i]) {
        if i >= StripStart(s) { assert StripStart(s) + |r| <= i; }
      }
    } else {
      assert r[0] == s[StripStart(s)] && !IsWs(r[0]);
    }
  }

  // ---------------------------------------------------------------- find / in

  /** `pat` occurs in `s` starting at index `k`. */
  predicate OccursAt(s: string, pat: string, k: int) {
    0 <= k && k + |pat| <= |s| && s[k..k + |pat|] == pat
  }

  /** Python's `pat in s`. */
  predicate Contains(s: string, pat: string) {
    exists k :: 0 <= k <= |s| - |pat| && OccursAt(s, pat, k)
  }

  /** `k` is where `pat` first occurs in `s`. */
  predicate IsFirstOccurrence(s: string, pat: string, k: int) {
    OccursAt(s, pat, k) && forall j :: 0 <= j < k ==> !OccursAt(s, pat, j)
  }

  function FindFrom(s: string, pat: string, from: nat): (r: int)
    requires from <= |s| + 1
    ensures r == -1 || (from <= r && OccursAt(s, pat, r))
    ensures forall j :: from <= j && (r == -1 || j < r) ==> !OccursAt(s, pat, j)
    decreases |s| + 1 - from
  {
    if from + |pat| > |s| then -1
    else if s[from..from + |pat|] == pat then from
    else FindFrom(s, pat, from + 1)
  }

  /** `s.find(pat)`: the index of the first occurrence of `pat`, or -1. */
  function Find(s: string, pat: string): (r: int)
    ensures r == -1 <==> !Contains(s, pat)
    ensures r != -1 ==> IsFirstOccurrence(s, pat, r)
  {
    FindFrom(s, pat, 0)
  }

  /** The first occurrence is unique, so it determines `find`. */
  lemma FindIsFirstOccurrence(s: string, pat: string, k: int)
    requires IsFirstOccurrence(s, pat, k)
    ensures Find(s, pat) == k
  {
    var r := Find(s, pat);
    assert r != -1 && OccursAt(s, pat, r) && OccursAt(s, pat, k);
  }
}

=== FILE: results.dfy ===
/** Option, the error outcomes of the catalog's operations, and a Result carrying one of them. */
module Results {

  datatype Option<+T> = None | Some(value: T)

  /** The ways an operation of the catalog can end without a value. */
  datatype Error =
    /** `EmojiIn.format_url` raised ValueError: the url names no Plurk emoticon host. */
    | NotPlurkUrl(url: string)
    /** `EmojiIn.alive_url` raised ValueError: the HEAD request did not answer 200. */
    | UnreachableUrl(url: string)
    /** `functools.reduce` was applied to an empty list with no initial value (TypeError). */
    | ReduceOfEmptySequence

  datatype Result<+T> = Ok(value: T) | Err(error: Error)
}

=== FILE: schema.dfy ===
/** The request models of the API (`schema.py`): the url validator of `EmojiIn`
    and the tag-string property of `EmojiAddTagsIn`. */
module Schema {
  import opened PyStr
  import opened Results
  import CommonUtils

  /** The host of Plurk's uploaded emoticons. */
  const EmosHost: string := "emos.plurk.com"
  /** The host of Plurk's built-in emoticons; a substring of `EmosHost`. */
  const StaticHost: string := "s.plurk.com"
  const Https: string := "https://"

  /** What `format_url` hands on: an https url on a Plurk emoticon host, with no
      ASCII space anywhere and no whitespace at either end. */
  predicate IsPlurkUrl(v: string) {
    && |Https| <= |v| && v[..|Https|] == Https
    && Contains(v, StaticHost)
    && ' ' !in v
    && Trimmed(v)
  }

  /** `url.replace(' ', '').strip()`. */
  function Squeeze(url: string): (u: string)
    ensures IsStripOf(u, RemoveChar(url, ' '))
    ensures ' ' !in u
    ensures Trimmed(u)
  {
    var removed := RemoveChar(url, ' ');
    var u := Strip(removed);
    forall c | c in u ensures c != ' ' {
      StripChars(removed, c);
    }
    u
  }

  /** Where `pat` occurs in `w`, it occurs in `Https + w` shifted by the scheme. */
  lemma ShiftOccurrence(w: string, pat: string, k: nat)
    ensures OccursAt(w, pat, k) <==> OccursAt(Https + w, pat, |Https| + k)
  {
    var v := Https + w;
    if 0 <= k && k + |pat| <= |w| {
      assert v[|Https| + k..|Https| + k + |pat|] == w[k..k + |pat|];
    }
  }

  /** Where `pat` occurs in `u` at or after `k`, it occurs in the suffix `u[k..]`. */
  lemma SuffixOccurrence(u: string, pat: string, k: nat, j: nat)
    requires k <= |u|
    ensures OccursAt(u, pat, k + j) <==> OccursAt(u[k..], pat, j)
  {
    if 0 <= j && k + j + |pat| <= |u| {
      assert u[k..][j..j + |pat|] == u[k + j..k + j + |pat|];
    }
  }

  /** Every uploaded-emoticon url also names the built-in host: `s.plurk.com`
      sits three characters into `emos.plurk.com`. */
  lemma EmosHostHoldsStaticHost(u: string, k: int)
    requires OccursAt(u, EmosHost, k)
    ensures OccursAt(u, StaticHost, k + 3)
  {
    assert EmosHost[3..] == StaticHost;
    assert u[k + 3..k + 3 + |StaticHost|] == u[k..k + |EmosHost|][3..];
  }

  /** One mismatching character rules out an occurrence. */
  lemma MismatchAt(s: string, pat: string, k: nat, i: nat)
    requires i < |pat| && k + i < |s|
    requires s[k + i] != pat[i]
    ensures !OccursAt(s, pat, k)
  {
    if k + |pat| <= |s| {
      assert s[k..k + |pat|][i] == s[k + i];
    }
  }

  /** The scheme prefix `https://` cannot hold the start of either host. */
  lemma NoHostInScheme(w: string, j: nat)
    requires j < |Https|
    ensures !OccursAt(Https + w, EmosHost, j)
    ensures !OccursAt(Https + w, StaticHost, j)
  {
    var v := Https + w;
    assert v[j] == Https[j] != EmosHost[0];
    MismatchAt(v, EmosHost, j, 0);
    if j == 4 {
      assert v[5] == ':' != StaticHost[1];
      MismatchAt(v, StaticHost, j, 1);
    } else {
      assert Https[j] != StaticHost[0];
      MismatchAt(v, StaticHost, j, 0);
    }
  }

  /** The url `format_url` builds from the first occurrence `k` of a host in `u`. */
  lemma RerootedShape(u: string, k: nat, pat: string)
    requires ' ' !in u && Trimmed(u)
    requires OccursAt(u, pat, k) && |pat| > 0
    requires Contains(u[k..], StaticHost)
    ensures IsPlurkUrl(Https + u[k..])
  {
    var w := u[k..];
    var v := Https + w;
    var j :| 0 <= j <= |w| - |StaticHost| && OccursAt(w, StaticHost, j);
    ShiftOccurrence(w, StaticHost, j);
    assert v[|v| - 1] == u[|u| - 1];
    assert ' ' !in w by {
      assert forall i :: 0 <= i < |w| ==> w[i] == u[k + i];
    }
    assert ' ' !in Https;
  }

  /** `EmojiIn.format_url`: squeeze out the spaces, then re-root the url at the
      first `emos.plurk.com`, or failing that the first `s.plurk.com`, behind
      `https://`; any other url is rejected. It accepts exactly the urls whose
      squeezed form names `s.plurk.com`, and what it accepts is a Plurk url. */
  function FormatUrl(url: string): (r: Result<string>)
    ensures r.Ok? <==> Contains(Squeeze(url), StaticHost)
    ensures r.Ok? ==> IsPlurkUrl(r.value)
    ensures r.Err? ==> r.error == NotPlurkUrl(Squeeze(url))
  {
    var u := Squeeze(url);
    if Contains(u, EmosHost) then
      RerootAccepted(u, EmosHost);
      Ok(Https + u[Find(u, EmosHost)..])
    else if Contains(u, StaticHost) then
      RerootAccepted(u, StaticHost);
      Ok(Https + u[Find(u, StaticHost)..])
    else
      Err(NotPlurkUrl(u))
  }

  /** Re-rooting a squeezed url at the first occurrence of a host it names
      gives a Plurk url; and a url naming either host names `s.plurk.com`. */
  lemma RerootAccepted(u: string, pat: string)
    requires pat == EmosHost || pat == StaticHost
    requires ' ' !in u && Trimmed(u)
    requires Contains(u, pat)
    ensures 0 <= Find(u, pat) <= |u|
    ensures Contains(u, StaticHost)
    ensures IsPlurkUrl(Https + u[Find(u, pat)..])
  {
    var k := Find(u, pat);
    if pat == EmosHost {
      EmosHostHoldsStaticHost(u, k);
      SuffixOccurrence(u, StaticHost, k, 3);
    } else {
      SuffixOccurrence(u, StaticHost, k, 0);
    }
    RerootedShape(u, k, pat);
  }

  /** When the squeezed url names `emos.plurk.com`, the result starts at its
      first occurrence. */
  lemma FormatUrlEmosBranch(url: string, k: int)
    requires IsFirstOccurrence(Squeeze(url), EmosHost, k)
    ensures FormatUrl(url) == Ok(Https + Squeeze(url)[k..])
  {
    FindIsFirstOccurrence(Squeeze(url), EmosHost, k);
  }

  /** Otherwise, when it names `s.plurk.com`, the result starts at the first
      occurrence of that. */
  lemma FormatUrlStaticBranch(url: string, k: int)
    requires !Contains(Squeeze(url), EmosHost)
    requires IsFirstOccurrence(Squeeze(url), StaticHost, k)
    ensures FormatUrl(url) == Ok(Https + Squeeze(url)[k..])
  {
    FindIsFirstOccurrence(Squeeze(url), StaticHost, k);
  }

  /** `https://` followed by the rest of an accepted url from its host onwards
      re-roots at offset eight: the scheme holds no host. */
  lemma RerootAtScheme(w: string, pat: string)
    requires pat == EmosHost || pat == StaticHost
    requires OccursAt(w, pat, 0)
    ensures IsFirstOccurrence(Https + w, pat, |Https|)
  {
    ShiftOccurrence(w, pat, 0);
    forall j | 0 <= j < |Https| ensures !OccursAt(Https + w, pat, j) {
      NoHostInScheme(w, j);
    }
  }

  /** A url already re-rooted at a host, `https://` + `w`, validates to itself. */
  lemma FormatRerooted(w: string, pat: string)
    requires pat == EmosHost || pat == StaticHost
    requires OccursAt(w, pat, 0)
    requires ' ' !in w && Trimmed(w)
    requires pat == StaticHost ==> !Contains(w, EmosHost)
    ensures FormatUrl(Https + w) == Ok(Https + w)
  {
    var v := Https + w;
    SqueezeFixed(w);
    RerootAtScheme(w, pat);
    assert v[|Https|..] == w;
    if pat == EmosHost {
      FormatUrlEmosBranch(v, |Https|);
    } else {
      NoEmosInRerooted(w);
      FormatUrlStaticBranch(v, |Https|);
    }
  }

  /** `https://` + `w` is left alone by the squeeze when `w` is. */
  lemma SqueezeFixed(w: string)
    requires ' ' !in w && Trimmed(w) && |w| > 0
    ensures Squeeze(Https + w) == Https + w
  {
    var v := Https + w;
    assert ' ' !in Https;
    assert ' ' !in v;
    assert v[|v| - 1] == w[|w| - 1];
    RemoveAbsent(v, ' ');
    StripTrimmed(v);
  }

  /** Prefixing the scheme adds no `emos.plurk.com`. */
  lemma NoEmosInRerooted(w: string)
    requires !Contains(w, EmosHost)
    ensures !Contains(Https + w, EmosHost)
  {
    var v := Https + w;
    forall j | 0 <= j <= |v| - |EmosHost| ensures !OccursAt(v, EmosHost, j) {
      if j < |Https| {
        NoHostInScheme(w, j);
      } else {
        ShiftOccurrence(w, EmosHost, j - |Https|);
      }
    }
  }

  /** The suffix of `u` from `k` holds no occurrence `u` lacks. */
  lemma SuffixLacks(u: string, k: nat, pat: string)
    requires k <= |u|
    requires !Contains(u, pat)
    ensures !Contains(u[k..], pat)
  {
    forall j | 0 <= j <= |u[k..]| - |pat| ensures !OccursAt(u[k..], pat, j) {
      SuffixOccurrence(u, pat, k, j);
    }
  }

  /** Re-rooting a squeezed url at an occurrence of a host gives a fixed point. */
  lemma RerootedIsFixed(u: string, k: nat, pat: string)
    requires pat == EmosHost || pat == StaticHost
    requires ' ' !in u && Trimmed(u)
    requires OccursAt(u, pat, k)
    requires pat == StaticHost ==> !Contains(u, EmosHost)
    ensures FormatUrl(Https + u[k..]) == Ok(Https + u[k..])
  {
    var w := u[k..];
    SuffixOccurrence(u, pat, k, 0);
    assert ' ' !in w by {
      assert forall i :: 0 <= i < |w| ==> w[i] == u[k + i];
    }
    assert w[|w| - 1] == u[|u| - 1];
    if pat == StaticHost {
      SuffixLacks(u, k, EmosHost);
    }
    assert w[0] == w[0..|pat|][0] == pat[0];
    assert !IsWs(pat[0]);
    FormatRerooted(w, pat);
  }

  /** Validating an accepted url again changes nothing. */
  lemma FormatUrlIdempotent(url: string)
    requires FormatUrl(url).Ok?
    ensures FormatUrl(FormatUrl(url).value) == FormatUrl(url)
  {
    var u := Squeeze(url);
    if Contains(u, EmosHost) {
      RerootedIsFixed(u, Find(u, EmosHost), EmosHost);
    } else {
      RerootedIsFixed(u, Find(u, StaticHost), StaticHost);
    }
  }

  /** `EmojiAddTagsIn.tag_str_list`: the same comprehension as the shared
      parser, so it yields the same names, each a well-formed tag name. */
  function TagStrList(tagsStr: string): (names: seq<string>)
    ensures names == CommonUtils.TagsStrToTagStrList(tagsStr)
    ensures forall i :: 0 <= i < |names| ==> CommonUtils.IsTagName(names[i])
  {
    CommonUtils.KeepNonEmpty(CommonUtils.CleanAll(Split(tagsStr, ',')))
  }
}
